=== FILE: README.md ===
# Item/Category CRUD service: a verified model

The repository is a benchmark that implements one Item/Category catalogue
service several times:
- the base Spring Data REST application;
- a Jersey/Hibernate variant with hand-written DAOs (variant1);
- Spring variants with services of their own (variant2).

This project models the sequential core the variants share:

- **The store.** Two tables, one of categories and one of items (`Tables`, `Store`).
  - Each table has an identity counter and an insertion order.
  - Every write checks the column constraints of the mapping: length bounds, `UNIQUE` codes and SKUs, `DECIMAL(10, 2)` prices, and the foreign key from an item to its category.
  - Two mappings are modelled: the base one (`BaseSchema`) and the shared one of the later variants (`VariantSchema`).
  - A refused write is `ConstraintViolation` and leaves every row as it was. The identity counter is not advanced either; see "## Left out".
- **The DAOs of the Jersey variant** (`Dao`).
  - Offset/limit paging of `FROM Item` and of the category filter.
  - The counts, and `saveAll` with its flush-every-20 counter.
  - `save`, `update` and `delete` are the store's `Insert*`, `Merge*` and `Remove*`.
  - `findById` and `existsById` are `Tables.Find` and `Tables.Exists`.
- **The decision layer** (`Paging`, `Listings`, `JerseyServices`, `SpringServices`, `Http`, `Resources`, `Controllers`).
  - Existence checks before update and delete.
  - The field-copy updates of variant2.
  - The page envelope `totalPages = ceil(totalElements / size)`.
  - The mapping of outcomes to HTTP statuses: the Jersey resources map every failure to 404; the controllers answer 500 when a write is refused.
- **The two seed generators** (`BaseSeed`, `JerseySeed`, with `Batches`).
  - Faker and `Random` are parameters: functions from the item (or category) number to what was drawn, restricted to the ranges the library calls promise.
  - The base generator:
    - runs in one transaction;
    - derives category codes as `department + "_" + i`;
    - accumulates items and saves them every 1000.
  - The Jersey generator:
    - saves categories 1 to 2000 in one transaction;
    - then saves `100000 / 5000` batches of items `"ITEM_" + n`, each batch in a transaction of its own.

Some behaviours of the code that are easy to misread:
- **Base generator.** It is `@Transactional` (`DataGeneratorService.java:99`), so a refused row undoes the whole run. It does not leave the store partially seeded.
- **Jersey generator.**
  - It generates `(total / batchSize) * batchSize` items. Any remainder is never generated; for the constants used, none is left over.
  - Its guard skips generation only when *both* tables hold rows. It does not skip when either does (see Findings).
- **Deleting a category.**
  - Under the variant mapping, `CascadeType.ALL` removes the category's items with it.
  - Under the base mapping, the foreign key refuses the delete while items reference the category.
- **Category type names.** "Electronics" has 11 letters, so a variant1 code has at most 11 + 1 + 4 = 16 characters.

## Model

| member | source | states |
|---|---|---|
| Text.Decimal | variant1/src/main/java/com/example/service/DataGeneratorService.java:120-123 | the rendering of an item number in `"ITEM_" + itemNumber` is a non-empty digit string, one digit long exactly for numbers below 10 |
| Text.ParseDecimalRoundTrip | variant1/src/main/java/com/example/service/DataGeneratorService.java:120-122 | reading the rendered number back gives the number: the rendering loses nothing |
| Text.DecimalInjective | variant1/src/main/java/com/example/service/DataGeneratorService.java:120-122 | two different item numbers are never rendered alike |
| Text.DecimalLength | src/main/java/com/example/service/DataGeneratorService.java:112-118 | a number below 10^k takes at most k digits, so an index below 2000 takes at most 4 |
| Text.Lower | src/main/java/com/example/service/DataGeneratorService.java:114 | `toLowerCase` on ASCII keeps the length, leaves no upper-case letter, maps each upper-case letter to the letter 32 code points above it and every other character to itself (so an underscore appears exactly where it did) |
| Text.LowerIdempotent | src/main/java/com/example/service/DataGeneratorService.java:114 | lower-casing an already lower-cased string changes nothing |
| Text.SuffixedInjective | src/main/java/com/example/service/DataGeneratorService.java:118 | when neither prefix contains `_`, equal codes `p + "_" + m` and `q + "_" + n` have equal prefixes and equal numbers |
| Tables.Find | variant1/src/main/java/com/example/dao/ItemDAO.java:82-87 | `findById` is present exactly when the id is stored, and then holds the stored row; empty, not an error, for an absent id (as the Jersey services' `getItemById` and `getCategoryById` return it) |
| Tables.Exists | variant1/src/main/java/com/example/dao/ItemDAO.java:201-203 | `existsById` holds exactly when `findById` is present, that is when the id is stored (`CategoryDAO.existsById` is the same) |
| Tables.ContentsSound | variant1/src/main/java/com/example/dao/ItemDAO.java:96-103 | an unfiltered listing holds stored rows only, with no id twice |
| Tables.WhereSound | variant1/src/main/java/com/example/dao/ItemDAO.java:114-124 | the filtered listing holds exactly the stored rows that pass the filter: nothing else, and none of them missing |
| Tables.Insert | variant1/src/main/java/com/example/dao/ItemDAO.java:33-45 | `persist` stores the row under a fresh id (the identity counter), appends it to the listing order and advances the counter; the table stays well formed |
| Tables.Replace | variant1/src/main/java/com/example/dao/ItemDAO.java:160-172 | merging over a stored id changes that row only; in the modelled insertion order every row keeps its place |
| Tables.Drop | variant1/src/main/java/com/example/dao/ItemDAO.java:179-193 | deleting removes exactly the given ids; when none of them is stored the table is unchanged |
| Tables.CountWhereMatchesWhere | variant1/src/main/java/com/example/service/ItemService.java:73-94 | `COUNT ... WHERE p` equals the length of the listing `... WHERE p` |
| Tables.CountMatchesContents | variant1/src/main/java/com/example/dao/ItemDAO.java:131-136 | `COUNT` equals the number of rows a full listing returns |
| Paging.Slice | variant1/src/main/java/com/example/dao/ItemDAO.java:99-101 | `setFirstResult(o)`/`setMaxResults(l)` returns `min(l, n - o)` elements (none past the end), element `i` being element `o + i` of the listing |
| Paging.PageOf | variant1/src/main/java/com/example/dao/CategoryDAO.java:95-102 | page `p` of size `s` has at most `s` elements, as many as the listing leaves from `p * s` on, each being element `p * s + i` |
| Paging.PageDistinct | variant1/src/main/java/com/example/dao/ItemDAO.java:96-103 | a page of a listing without repeated keys has no repeated keys |
| Paging.CeilDiv | variant1/src/main/java/com/example/resource/ItemResource.java:71 | `ceil(total / size)` is the least page count whose pages hold all `total` elements |
| Paging.MakeEnvelope | variant1/src/main/java/com/example/resource/ItemResource.java:68-73 | the envelope carries the given content, total, page number and size, and `totalPages` is the ceiling of total over size |
| Paging.PageLengthBounds | variant1/src/main/java/com/example/resource/CategoryResource.java:67-72 | a page is non-empty exactly when its number is below `totalPages`; every page before the last is full and the last holds the rest |
| Paging.EnvelopeOfPage | variant1/src/main/java/com/example/resource/CategoryResource.java:64-74 | the envelope of a page of a list is self-consistent in the same three ways |
| Paging.PagesCover | variant1/src/main/java/com/example/dao/CategoryDAO.java:95-102 | in the modelled stable order, reading pages `0 .. totalPages-1` returns every element exactly once, in order, and pages from `totalPages` on are empty |
| Paging.PageContaining | variant1/src/main/java/com/example/dao/ItemDAO.java:99-100 | element `i` is on page `i / size`, at position `i % size`, and that page is below `totalPages` |
| Store.InsertCategory | variant1/src/main/java/com/example/model/Category.java:43-50 | `save` succeeds exactly when the code (at most 32) and the name (at most 128) fit and no stored category has the code; a refusal is a constraint violation that changes nothing; a success appends one row under the next id, keeps the items and keeps every constraint |
| Store.DuplicateCodeRefused | src/main/java/com/example/Category.java:51-59 | `UNIQUE (code)`: a category whose code a stored row uses is refused, as a new row and as a rewrite of any other row |
| Store.InsertItem | variant1/src/main/java/com/example/model/Item.java:41-66 | `save` succeeds exactly when the SKU (unique, at most 64), name (at most 128), price (below 10^10 cents) and stock fit and the category is stored; otherwise a constraint violation that changes nothing |
| Store.VariantItemNeedsCategory | variant1/src/main/java/com/example/model/Item.java:79-82 | the category is mandatory: an item without one is refused |
| Store.BaseItemWithoutCategory | src/main/java/com/example/Item.java:53-93 | under the base mapping an item without category is stored exactly when SKU, name, price and stock fit, it has no description and its SKU is free |
| Store.MergeCategory | variant1/src/main/java/com/example/dao/CategoryDAO.java:122-134 | `update` of a stored id makes that row hold the given state, with every other row, the items and the order unchanged; a refusal changes nothing; an unstored id is persisted as a new row |
| Store.MergeItem | variant1/src/main/java/com/example/dao/ItemDAO.java:160-172 | the same for items |
| Store.RemoveItem | variant1/src/main/java/com/example/dao/ItemDAO.java:179-193 | `delete` removes exactly the given id, and an absent id commits with no change and no error |
| Store.RemoveCategory | variant1/src/main/java/com/example/dao/CategoryDAO.java:141-155 | `delete` of an absent id changes nothing; a present id is removed and, under the cascading mapping, exactly its items go with it; under the base mapping the delete is refused exactly when items still reference it |
| Store.RemoveCategoryConsistent | variant1/src/main/java/com/example/model/Category.java:63-65 | removing a category never leaves an item pointing at a missing category |
| Store.InsertAllCategories | variant1/src/main/java/com/example/dao/CategoryDAO.java:55-73 | `saveAll` stores the whole list or, on a refusal, nothing: the identity counter advances by the list length |
| Store.InsertAllCategoriesContents | variant1/src/main/java/com/example/dao/CategoryDAO.java:60-61 | the list is stored after the existing rows, in list order, under consecutive ids |
| Store.InsertAllCategoriesStored | variant1/src/main/java/com/example/service/DataGeneratorService.java:64-65 | after a successful `saveAll` the `i`-th category of the list is the row with the `i`-th new id |
| Store.InsertAllCategoriesAdmissible | variant1/src/main/java/com/example/dao/CategoryDAO.java:55-73 | `saveAll` succeeds exactly when every category fits, none collides with a stored code and no two in the list share a code |
| Store.InsertAllCategoriesConsistent | variant1/src/main/java/com/example/dao/CategoryDAO.java:55-73 | a successful `saveAll` keeps every constraint of the store |
| Store.InsertAllItems | variant1/src/main/java/com/example/dao/ItemDAO.java:56-74 | `saveAll` of items is all or nothing; categories are untouched |
| Store.InsertAllItemsContents | variant1/src/main/java/com/example/dao/ItemDAO.java:61-62 | the items are stored after the existing rows, in list order, under consecutive ids |
| Store.InsertAllItemsAdmissible | variant1/src/main/java/com/example/dao/ItemDAO.java:56-74 | `saveAll` succeeds exactly when every item is admissible and no two share a SKU |
| Store.InsertAllItemsConsistent | variant1/src/main/java/com/example/dao/ItemDAO.java:56-74 | a successful `saveAll` keeps every constraint |
| Store.InsertAllItemsAppend | src/main/java/com/example/service/DataGeneratorService.java:138-149 | saving `a` and then `b` inside one transaction is saving `a + b`: it fails exactly when the single save would, and otherwise stores the same |
| Dao.FindAll | variant1/src/main/java/com/example/dao/ItemDAO.java:96-103 | `findAll(page, size)` holds at most `size` stored rows, no id twice, as many as `count()` leaves from `page * size` on (`CategoryDAO.findAll` is the same) |
| Dao.FindAllComplete | variant1/src/main/java/com/example/dao/ItemDAO.java:96-103 | in the modelled stable order, every stored row is returned on one of the pages below `ceil(count / size)` |
| Dao.CountAll | variant1/src/main/java/com/example/dao/CategoryDAO.java:109-114 | `count()` is the number of rows a full listing returns; variant2's `countCategories` is this count |
| Dao.CountByCategory | variant1/src/main/java/com/example/dao/ItemDAO.java:144-152 | `countByCategoryId(c)` is the length of the category-filtered listing, and at most `count()`; variant2's `countItemsByCategoryId` is this count |
| Dao.FindByCategory | variant1/src/main/java/com/example/dao/ItemDAO.java:114-124 | `findByCategoryId` returns only stored items of that category, at most `size`, as many as `countByCategoryId` leaves from `page * size` on |
| Dao.FindByCategoryComplete | variant1/src/main/java/com/example/dao/ItemDAO.java:114-124 | in the modelled stable order, every stored item of the category is on one of the pages below `ceil(countByCategoryId / size)` |
| Dao.SaveAllCategories | variant1/src/main/java/com/example/dao/CategoryDAO.java:55-73 | the loop's outcome is the all-or-nothing save; it succeeds exactly for admissible lists, and a successful save flushes `n / 20` times, and no run flushes more than every 20th row |
| Dao.SaveAllItems | variant1/src/main/java/com/example/dao/ItemDAO.java:56-74 | the same for items; the flushes do not change what is committed |
| Listings.ListPage | src/main/java/com/example/controller/CategoryController.java:60-66 | a page of all rows: `findAll`'s page, `totalElements = count()`, the page number and size, `totalPages = ceil(totalElements / size)`, non-empty exactly below `totalPages`, full before the last page |
| Listings.CategoryPage | variant1/src/main/java/com/example/resource/CategoryResource.java:115-125 | the items sub-resource envelope: the filtered page, `totalElements = countByCategoryId`, the page number and size, `totalPages = ceil(totalElements / size)`, and only items of that category |
| JerseyServices.UpdateItem | variant1/src/main/java/com/example/service/ItemService.java:104-110 | an absent id is "not found" and nothing is written; a present id takes the payload under the path id, every other row kept, and succeeds exactly when the payload is admissible |
| JerseyServices.DeleteItem | variant1/src/main/java/com/example/service/ItemService.java:118-123 | an absent id is "not found"; a present id is removed, count down by one, no other row changed |
| JerseyServices.UpdateCategory | variant1/src/main/java/com/example/service/CategoryService.java:82-88 | as for items, on the category table; the items are untouched |
| JerseyServices.DeleteCategory | variant1/src/main/java/com/example/service/CategoryService.java:96-101 | an absent id is "not found"; under the cascading mapping a present id always succeeds and removes the category with exactly its items |
| JerseyServices.DeleteCategoryCascades | variant1/src/main/java/com/example/model/Category.java:63 | after a category delete no item of that category remains, and every item of another category does |
| SpringServices.GetItem | variant2/src/main/java/com/example/service/ItemService.java:57-60 | `getItemById` returns the stored item, or fails "not found" exactly for an absent id |
| SpringServices.GetCategory | variant2/src/main/java/com/example/service/CategoryService.java:57-60 | the same for categories |
| SpringServices.CopyItemFields | variant2/src/main/java/com/example/service/ItemService.java:102-108 | after the setter calls every field of the stored item is the payload's |
| SpringServices.CopyCategoryFields | variant2/src/main/java/com/example/service/CategoryService.java:80-82 | copying code and name leaves nothing of the old category state |
| SpringServices.UpdateItem | variant2/src/main/java/com/example/service/ItemService.java:101-110 | "not found" before any save exactly for an absent id; otherwise the row under that id holds the payload |
| SpringServices.UpdateItemAgrees | variant2/src/main/java/com/example/service/ItemService.java:101-110 | the field-copy update and the Jersey id-overwrite-and-merge update have the same outcome on every store |
| SpringServices.UpdateCategory | variant2/src/main/java/com/example/service/CategoryService.java:79-84 | "not found" exactly for an absent id; otherwise code and name are replaced and the items stay |
| SpringServices.UpdateCategoryAgrees | variant2/src/main/java/com/example/service/CategoryService.java:79-84 | the same agreement for categories |
| Http.GetById | variant1/src/main/java/com/example/resource/ItemResource.java:84-94 | 200 with the stored row exactly when the id is stored, 404 otherwise; the category resource and both base controllers answer alike |
| Http.CreateItem | variant1/src/main/java/com/example/resource/ItemResource.java:102-106 | for a body without an id: 201 with the new row exactly when the item is admissible, under a fresh id, count up by one; otherwise 500 and no change |
| Http.CreateCategory | variant1/src/main/java/com/example/resource/CategoryResource.java:134-138 | for a body without an id: 201 with the new row exactly when the category is admissible, under a fresh id; otherwise 500 and no change |
| Http.SaveItemBody | src/main/java/com/example/controller/ItemController.java:116-119 | Spring Data `save` of the body: without an id, or with an unstored one, it is `CreateItem`; with a stored id the row is overwritten in place, the count unchanged, the other rows kept, still answered 201; a refusal is 500 with no change |
| Http.SaveCategoryBody | src/main/java/com/example/controller/CategoryController.java:91-94 | the same for category bodies, with the items unchanged |
| Http.PersistItemBody | variant1/src/main/java/com/example/dao/ItemDAO.java:33-39 | `persist` of the body: 201 exactly when the body has no id and the item is admissible; a body with an id is refused with 500 and no change |
| Http.PersistCategoryBody | variant1/src/main/java/com/example/dao/CategoryDAO.java:32-38 | the same for category bodies |
| Resources.ListItems | variant1/src/main/java/com/example/resource/ItemResource.java:51-76 | with a `categoryId` the content is the category's page and `totalElements` its count, otherwise the page and count of the whole table; `totalPages = ceil(totalElements / size)`; content non-empty exactly below `totalPages` |
| Resources.ListCategories | variant1/src/main/java/com/example/resource/CategoryResource.java:59-75 | the requested page of stored categories, `totalElements = count()`, `totalPages = ceil(totalElements / size)` |
| Resources.CategoryItems | variant1/src/main/java/com/example/resource/CategoryResource.java:103-126 | 404 exactly for an absent category; otherwise the requested page of that category's items, their count, the page number and size, and `totalPages = ceil(count / size)`; the base `CategoryController` answers alike (`CategoryController.java:151-161`) |
| Resources.UpdateItem | variant1/src/main/java/com/example/resource/ItemResource.java:115-124 | 200 with the payload exactly when the id is stored and the payload admissible; any failure, not-found or refused, is 404 with no change |
| Resources.DeleteItem | variant1/src/main/java/com/example/resource/ItemResource.java:132-141 | 204 exactly when the id is stored, the row then gone; 404 with no change otherwise |
| Resources.UpdateCategory | variant1/src/main/java/com/example/resource/CategoryResource.java:147-156 | as for items, on categories |
| Resources.DeleteCategory | variant1/src/main/java/com/example/resource/CategoryResource.java:164-173 | under the cascading mapping 204 exactly when the id is stored, removing the category and its items; otherwise 404 and no change |
| Resources.JsonItemBodyRefused | variant1/src/main/java/com/example/model/Item.java:78-81 | under the variant mapping an item without a category, the only kind a JSON body can carry because the category is ignored when a body is read, is refused by every write: create answers 500, the Jersey update 404, and variant2's field-copying update fails (variant2/src/main/java/com/example/service/ItemService.java:101-109 copies the missing category) |
| Controllers.ListItems | src/main/java/com/example/controller/ItemController.java:59-65 | 200 with the requested page of stored items, the item count, the page number and size, and `totalPages = ceil(count / size)` |
| Controllers.ItemsByCategory | src/main/java/com/example/controller/ItemController.java:98-106 | a request with `categoryId` answers the requested page of that category's items, the filtered count, the page number and size, and `totalPages = ceil(count / size)` |
| Controllers.ListItemsAgree | src/main/java/com/example/controller/ItemController.java:98-106 | the Jersey list and the controller's routing on `categoryId` answer alike |
| Controllers.UpdateItem | src/main/java/com/example/controller/ItemController.java:132-140 | 404 and no save exactly for an absent id; 200 with the payload under the path id when admissible, every other row kept; 500 and no change when refused |
| Controllers.UpdateItemStatusesDiffer | src/main/java/com/example/controller/ItemController.java:132-140 | both applications change the store alike; their statuses differ exactly when a stored row refuses the payload |
| Controllers.CreateWithStoredIdUpdates | src/main/java/com/example/Item.java:109-111 | because the id is writable from the request body, a `POST /items` carrying a stored id stores what `PUT /items/{id}` stores, and succeeds exactly when it does |
| Controllers.CreateCategoryWithStoredIdUpdates | src/main/java/com/example/Category.java:89-91 | the same for `POST /categories` against `PUT /categories/{id}` |
| Controllers.DeleteItem | src/main/java/com/example/controller/ItemController.java:150-157 | 404 with no change when absent; 204 with exactly that row removed when present |
| Controllers.UpdateCategory | src/main/java/com/example/controller/CategoryController.java:107-115 | 404 and no save for an absent id; 200 and the row replaced, items kept, when admissible; 500 otherwise |
| Controllers.DeleteCategory | src/main/java/com/example/controller/CategoryController.java:125-132 | 404 with no change when absent; under the base mapping 500 with no change exactly when items still reference the category; 204 otherwise |
| Controllers.DeleteCategoryKeepsItems | src/main/java/com/example/Category.java:79-81 | under the base mapping a category delete never removes an item |
| Batches.SaveInOneTransaction | src/main/java/com/example/service/DataGeneratorService.java:99-149 | the item batches saved inside the one enclosing transaction: a refusal is a constraint violation and the categories are untouched |
| Batches.SaveInOneTransactionFlat | src/main/java/com/example/service/DataGeneratorService.java:138-149 | saving the batches one after another in one transaction has the outcome of saving their concatenation at once |
| Batches.SaveEachBatch | variant1/src/main/java/com/example/service/DataGeneratorService.java:115-134 | each batch committed on its own; the run stops at the first refused batch with a constraint violation, categories untouched |
| Batches.SaveEachBatchComplete | variant1/src/main/java/com/example/service/DataGeneratorService.java:115-134 | per-batch commits refuse a run exactly when one enclosing transaction would, and otherwise store the same |
| Batches.SaveEachBatchPrefix | variant1/src/main/java/com/example/service/DataGeneratorService.java:131 | a per-batch run leaves exactly the first `k` whole batches stored; `k` is all of them exactly when nothing was refused, and otherwise batch `k` is the one refused |
| BaseSeed.Sanitize | src/main/java/com/example/service/DataGeneratorService.java:114 | `replaceAll("[^a-zA-Z0-9.-]", "")` leaves only letters, digits, `.` and `-` |
| BaseSeed.SanitizeKeeps | src/main/java/com/example/service/DataGeneratorService.java:114 | every letter, digit, `.` and `-` of the department stays, as often as it occurs |
| BaseSeed.SanitizeAppend | src/main/java/com/example/service/DataGeneratorService.java:114 | the kept characters keep their order |
| BaseSeed.DepartmentToken | src/main/java/com/example/service/DataGeneratorService.java:114-117 | the token is at most 25 characters, all lower-case letters, digits, `.` or `-` (so no `_`), a prefix of the lower-cased sanitized department, all of it when that is not longer than 25, and exactly 25 characters when it is longer |
| BaseSeed.CategoryCodesDistinct | src/main/java/com/example/service/DataGeneratorService.java:112-118 | codes of categories with different indexes differ, whatever departments were drawn |
| BaseSeed.CategoryCodeFits | src/main/java/com/example/service/DataGeneratorService.java:114-118 | a code with index below 2000 is at most 25 + 1 + 4 = 30 characters, within the 32-character column |
| BaseSeed.SeedCategories | src/main/java/com/example/service/DataGeneratorService.java:111-121 | exactly 2000 categories are built |
| BaseSeed.SeedCategoriesAdmissible | src/main/java/com/example/service/DataGeneratorService.java:111-122 | on a store without categories the category save is admissible exactly when every drawn name fits its column |
| BaseSeed.SeedItems | src/main/java/com/example/service/DataGeneratorService.java:127-136 | exactly 100000 items are built |
| BaseSeed.SeedItemsAdmissible | src/main/java/com/example/service/DataGeneratorService.java:129-135 | with the categories stored, the items are admissible exactly when every product name fits and no EAN repeats; price, stock and category always do |
| BaseSeed.SeedRun | src/main/java/com/example/service/DataGeneratorService.java:99-149 | the whole run is one transaction: a refusal is a constraint violation; a success leaves a well-formed store of the same mapping |
| BaseSeed.SeedRunSucceeds | src/main/java/com/example/service/DataGeneratorService.java:99-149 | on an empty store the run succeeds exactly when every drawn category and product name fits and no two items draw the same EAN |
| BaseSeed.SeedRunContents | src/main/java/com/example/service/DataGeneratorService.java:111-149 | a successful run on an empty store leaves exactly the 2000 categories and the 100000 items, in generation order under consecutive ids, each item pointing at the saved category it picked |
| BaseSeed.SeedRunConsistent | src/main/java/com/example/service/DataGeneratorService.java:135 | a successful run keeps every constraint, including each item's reference to a saved category |
| BaseSeed.SeedRunIdempotent | src/main/java/com/example/service/DataGeneratorService.java:101-105 | running again after a successful run returns having saved nothing, whatever it would draw |
| BaseSeed.Accumulate | src/main/java/com/example/service/DataGeneratorService.java:138-149 | the saved batches concatenate to the items in order; each holds 1 to `cap` items, all but the last exactly `cap`; there are `n / cap` full batches and one more exactly when `n % cap != 0` |
| BaseSeed.GenerateData | src/main/java/com/example/service/DataGeneratorService.java:99-149 | the loops have `SeedRun`'s outcome; a seeded store is left without any save; otherwise, once the categories are saved, the items are saved in 100 batches of 1000 that concatenate to the generated items |
| JerseySeed.TypeOf | variant1/src/main/java/com/example/service/DataGeneratorService.java:87-93 | category `n` takes one of the ten type names |
| JerseySeed.TypeShape | variant1/src/main/java/com/example/service/DataGeneratorService.java:87-88 | every type name has 1 to 11 characters and no `_`, before and after lower-casing |
| JerseySeed.GenerateCategories | variant1/src/main/java/com/example/service/DataGeneratorService.java:85-101 | `generateCategories(n)` returns exactly `n` categories |
| JerseySeed.CategoryFits | variant1/src/main/java/com/example/service/DataGeneratorService.java:90-93 | a category numbered below 10000 fits its columns, its code being at most 11 + 1 + 4 characters |
| JerseySeed.CategoryCodesDistinct | variant1/src/main/java/com/example/service/DataGeneratorService.java:90-92 | categories with different numbers have different codes |
| JerseySeed.GeneratedCategoriesValid | variant1/src/main/java/com/example/service/DataGeneratorService.java:85-101 | all 2000 generated categories fit their columns and no two share a code |
| JerseySeed.GeneratedCategoriesAdmissible | variant1/src/main/java/com/example/service/DataGeneratorService.java:64-65 | the category save succeeds exactly when no stored category already uses a generated code |
| JerseySeed.ItemsUpTo | variant1/src/main/java/com/example/service/DataGeneratorService.java:117-128 | items 1 to `n`, exactly `n` of them |
| JerseySeed.Batch | variant1/src/main/java/com/example/service/DataGeneratorService.java:116-129 | each batch holds exactly `batchSize` items |
| JerseySeed.ItemBatches | variant1/src/main/java/com/example/service/DataGeneratorService.java:113-115 | there are exactly `totalItems / batchSize` batches (integer division) |
| JerseySeed.BatchesPrefix | variant1/src/main/java/com/example/service/DataGeneratorService.java:115-128 | the first `b` batches are items 1 to `b * batchSize`, in number order |
| JerseySeed.GeneratedCount | variant1/src/main/java/com/example/service/DataGeneratorService.java:113-115 | a run generates `(total / size) * size` items, never more than `total`: the remainder is never generated |
| JerseySeed.SkusDistinct | variant1/src/main/java/com/example/service/DataGeneratorService.java:117-122 | items with different numbers have different SKUs |
| JerseySeed.ItemsUpToAdmissible | variant1/src/main/java/com/example/service/DataGeneratorService.java:119-127 | with the categories stored and no item, the first `n` items are admissible exactly when every product name leaves room for `" #" + number` |
| JerseySeed.Populate | variant1/src/main/java/com/example/service/DataGeneratorService.java:62-70 | categories are saved before any item is built, and a refusal anywhere is a constraint violation |
| JerseySeed.SeedRunAsWritten | variant1/src/main/java/com/example/service/DataGeneratorService.java:47-70 | as written, the run is skipped only when both tables hold rows |
| JerseySeed.SeedRun | variant1/src/main/java/com/example/service/DataGeneratorService.java:47-70 | with the corrected guard, the run is skipped when either table holds rows |
| JerseySeed.GuardsAgree | variant1/src/main/java/com/example/service/DataGeneratorService.java:54-57 | the written and the corrected guard decide alike unless exactly one table is empty |
| JerseySeed.CategoryStepSucceeds | variant1/src/main/java/com/example/service/DataGeneratorService.java:62-65 | on a store without categories the category save succeeds and leaves exactly 2000 categories |
| JerseySeed.RerunAfterRefusedBatchFails | variant1/src/main/java/com/example/service/DataGeneratorService.java:54-70 | as written: a first run whose first item is refused leaves 2000 categories and no item, and every later run is refused, leaving that store |
| JerseySeed.RerunOverSavedCategoriesFails | variant1/src/main/java/com/example/service/DataGeneratorService.java:54-65 | as written: a store holding the generated categories and no item passes the guard and the category save is refused |
| JerseySeed.SeedRunIdempotent | variant1/src/main/java/com/example/service/DataGeneratorService.java:54-57 | with the corrected guard, a second run never changes anything, whatever the first run did |
| JerseySeed.SeedRunCommitsWholeBatches | variant1/src/main/java/com/example/service/DataGeneratorService.java:111-135 | a run that passed the guard leaves items 1 to `b * 5000` for some `b`, all 20 batches exactly when nothing was refused |
| JerseySeed.SeedRunSucceeds | variant1/src/main/java/com/example/service/DataGeneratorService.java:111-135 | on an empty store the run completes exactly when every product name leaves room for its number |
| JerseySeed.BatchesCompleteWhenAdmissible | variant1/src/main/java/com/example/service/DataGeneratorService.java:113-131 | the 20 batch saves all succeed exactly when the 100000 items, taken together, are admissible |
| JerseySeed.SaveItemsInBatches | variant1/src/main/java/com/example/service/DataGeneratorService.java:111-135 | the nested loops commit batch by batch as `Batches.SaveEachBatch` does; the batch counter reaches `total / batchSize` exactly when no batch was refused |
| JerseySeed.BuildBatch | variant1/src/main/java/com/example/service/DataGeneratorService.java:116-129 | the inner loop builds exactly items `batch * batchSize + 1` to `(batch + 1) * batchSize` |
| JerseySeed.GenerateData | variant1/src/main/java/com/example/service/DataGeneratorService.java:43-77 | the loops, with the guard as written (`&&`), have the outcome `SeedRunAsWritten` defines; where both tables are empty or both hold rows, this is also the corrected `SeedRun` |

## Left out

- Faker and `Random` draws are parameters.
  - They are restricted to the ranges the calls promise: 13-digit EANs, prices of 1.00 to 1000.00 (base) or 0.00 to 1000.00 (Jersey) in cents, stock below 1000, and a category index below 2000.
  - The floating-point price computation and its `HALF_UP` rounding are not modelled; only the resulting cents are.
- `ean13()` SKUs are not unique. `BaseSeed.SeedRunSucceeds` states that the run succeeds exactly when no two EANs repeat; it does not claim that they never do.
- `updatedAt` timestamps, the clock, logging and `System.out` output, and the timing of the Jersey generator are not modelled.
- Paging takes natural numbers and `size > 0`. The behaviour of a size of 0 (a double division by zero), negative page numbers and 32-bit overflow of `page * size` are not modelled.
- `Math.ceil` on doubles is integer ceiling division.
- Spring Data's `deleteById`, used by the base controllers and variant2's `deleteItem`/`deleteCategory`, is library code. `Controllers.DeleteItem` models only the base controller's existence-checked path. No claim is made about variant2's deletes of an absent id.
- Spring Data's `save` of an entity whose id is set is modelled as a merge. A merge of an absent id persists a new row (`Store.MergeItem`); Hibernate's handling of an unknown id depends on its version, so only the request paths that check existence first rely on it.
- Http.SaveItemBody: a body carrying an id that is not stored is modelled as a fresh insert, as `Store.MergeItem` does. Newer Hibernate versions refuse such a merge instead, and the model does not cover that. `Http.SaveCategoryBody` is treated the same way.
- Http.PersistItemBody: the refusal of a body carrying an id is Hibernate's rule that `persist` does not accept a detached entity. Only its outcome is modelled, which is an exception, a 500 and no change. `Http.PersistCategoryBody` is treated the same way.
- Request bodies whose `sku`, `name`, `code`, `price` or `stock` is null are not modelled: the entity types have no null for those fields. The source refuses such bodies with a not-null violation, which is a 500 with no change.
- Item request bodies in variants 1 and 2 are items of any category, not only the ones JSON can express. The category is ignored when a body is read, so over HTTP every item body there has no category. `Resources.JsonItemBodyRefused` states the consequence: `Http.CreateItem`, `Http.PersistItemBody`, `Resources.UpdateItem` and `SpringServices.UpdateItem` then always refuse. Their success cases are reachable only from Java callers and from the data generators.
- Listings are modelled in a stable insertion order. The `FROM Item`, `FROM Category` and category-filter queries (`ItemDAO.java:96-124`, `CategoryDAO.java:95-102`) have no `ORDER BY`, and PostgreSQL promises no order without one. An updated row may move, and consecutive pages may overlap or skip rows. `Tables.Replace`, `Paging.PagesCover`, `Dao.FindAllComplete` and `Dao.FindByCategoryComplete` state their order facts about the modelled order only.
- Ids after a refused write are modelled without a gap. The ids are `IDENTITY` columns, and PostgreSQL does not roll a sequence back when an `INSERT` fails. So a refused `persist` or `saveAll` uses up ids, and the next accepted row gets a higher id than `next`. The model keeps the counter unchanged on refusal, so the ids it assigns after a refusal are lower than the database's. The set of rows and their order are unaffected.
- Prices are integer cents. A request body may carry a `BigDecimal` price with more than two decimals, such as 12.345. The `DECIMAL(10, 2)` column rounds it on insert, while the create response echoes the unrounded value. Such prices and their rounding are not represented.
- variant2 and variant3 controllers and repositories only delegate. The variant2 services are modelled; their list queries and counts are the `Dao` functions.
- Sessions, lazy loading, JSON serialisation and the flush/clear memory effect are not modelled. The flushes of `saveAll` are only a counter (`Dao.SaveAllItems`).
- Transactions are modelled only as the all-or-nothing outcome of each call. Concurrency and the startup race on the generator's guard are not modelled.
- `toLowerCase` is ASCII lowercasing; locale-specific rules are not modelled.
- The base `Item` has no description column, so `BaseSchema` requires the description to be absent.
- `BaseSeed.SeedRun`: the contract says only that a failure is a constraint violation and that a success is well formed. What the run stores is stated by `BaseSeed.SeedRunSucceeds` and `BaseSeed.SeedRunContents`.
- `JerseySeed.Populate`: the contract states only the error kind and the mapping. What a run stores is stated by `JerseySeed.SeedRunCommitsWholeBatches` and `JerseySeed.SeedRunSucceeds`.
- `Resources.DeleteCategory`: the success condition is stated for the cascading mapping only. The Jersey resources never run under the base mapping.

## Findings

| source | as written | input that shows it | evidently intended | confidence | as-written member | corrected member |
|---|---|---|---|---|---|---|
| variant1/src/main/java/com/example/service/DataGeneratorService.java:54-57 | generation is skipped only when `categoryCount > 0 && itemCount > 0` | an empty store where the first product name drawn is longer than 125 characters: the first run saves the 2000 categories, then the first item batch is refused. Every later run passes the guard and is refused on the first duplicate category code, so the store is never filled | skip when either count is non-zero, as the base generator does: a second run then never changes the store | medium, not executed | JerseySeed.RerunAfterRefusedBatchFails | JerseySeed.SeedRunIdempotent |

=== FILE: batches.dfy ===
/**
 Saving generated items batch by batch. The two generators differ in where
 the transaction boundary lies: the base generator runs inside one
 transaction, so a refused batch undoes every batch before it; the Jersey
 generator commits each batch on its own, so a refused batch leaves the
 earlier ones stored.
 */
module Batches {
  import opened Wrappers
  import opened Tables
  import opened Entities
  import opened Store

  /** The batches one after another. */
  function Flatten<T>(batches: seq<seq<T>>): (r: seq<T>)
    ensures batches == [] ==> r == []
  {
    if batches == [] then [] else Flatten(batches[..|batches| - 1]) + batches[|batches| - 1]
  }

  lemma FlattenSnoc<T>(batches: seq<seq<T>>, b: seq<T>)
    ensures Flatten(batches + [b]) == Flatten(batches) + b
  {
    assert (batches + [b])[..|batches|] == batches;
  }

  lemma {:induction false} FlattenPrefix<T>(batches: seq<seq<T>>, k: nat)
    requires k < |batches|
    ensures Flatten(batches[..k + 1]) == Flatten(batches[..k]) + batches[k]
  {
    assert batches[..k + 1] == batches[..k] + [batches[k]];
    FlattenSnoc(batches[..k], batches[k]);
  }

  /** `saveAll` of each batch inside one enclosing transaction: the first
      refused batch fails the whole run. */
  function SaveInOneTransaction(s: Store, batches: seq<seq<Item>>): (r: Result<Store>)
    requires WellFormed(s)
    ensures r.Failure? ==> r.error == ConstraintViolation
    ensures r.Success? ==> WellFormed(r.value) && r.value.categories == s.categories
    decreases |batches|
  {
    if batches == [] then Success(s)
    else
      match InsertAllItems(s, batches[0])
      case Failure(e) => Failure(e)
      case Success(s1) => SaveInOneTransaction(s1, batches[1..])
  }

  /** Saving the batches in one transaction is saving their concatenation
      at once: the batch boundaries change nothing about the outcome. */
  lemma {:induction false} SaveInOneTransactionFlat(s: Store, batches: seq<seq<Item>>)
    requires WellFormed(s)
    ensures SaveInOneTransaction(s, batches) == InsertAllItems(s, Flatten(batches))
    decreases |batches|
  {
    if batches != [] {
      var b, rest := batches[0], batches[1..];
      assert Flatten(batches) == b + Flatten(rest) by {
        FlattenCons(b, rest);
        assert batches == [b] + rest;
      }
      InsertAllItemsAppend(s, b, Flatten(rest));
      match InsertAllItems(s, b)
      case Failure(_) =>
      case Success(s1) => SaveInOneTransactionFlat(s1, rest);
    }
  }

  lemma {:induction false} FlattenCons<T>(b: seq<T>, rest: seq<seq<T>>)
    ensures Flatten([b] + rest) == b + Flatten(rest)
    decreases |rest|
  {
    if rest == [] {
      assert [b] + rest == [b];
      assert Flatten([b]) == Flatten([b][..0]) + b;
    } else {
      var init, last := rest[..|rest| - 1], rest[|rest| - 1];
      assert [b] + rest == ([b] + init) + [last];
      assert rest == init + [last];
      FlattenSnoc([b] + init, last);
      FlattenSnoc(init, last);
      FlattenCons(b, init);
    }
  }

  /** How a run of batch saves ended: the store it left, and the error of
      the refused batch, if one was refused. */
  datatype Outcome = Outcome(store: Store, error: Option<Error>)

  /** `saveAll` of each batch in a transaction of its own: the run stops at
      the first refused batch, and the batches before it stay committed. */
  function SaveEachBatch(s: Store, batches: seq<seq<Item>>): (r: Outcome)
    requires WellFormed(s)
    ensures WellFormed(r.store) && r.store.schema == s.schema && r.store.categories == s.categories
    ensures r.error.Some? ==> r.error.value == ConstraintViolation
    decreases |batches|
  {
    if batches == [] then Outcome(s, None)
    else
      match InsertAllItems(s, batches[0])
      case Failure(e) => Outcome(s, Some(e))
      case Success(s1) => SaveEachBatch(s1, batches[1..])
  }

  /** With no batch refused, committing batch by batch stores what one
      enclosing transaction would; either discipline refuses a run exactly
      when the other does. */
  lemma {:induction false} SaveEachBatchComplete(s: Store, batches: seq<seq<Item>>)
    requires WellFormed(s)
    ensures SaveEachBatch(s, batches).error.None? <==> SaveInOneTransaction(s, batches).Success?
    ensures SaveEachBatch(s, batches).error.None? ==>
              SaveInOneTransaction(s, batches) == Success(SaveEachBatch(s, batches).store)
    decreases |batches|
  {
    if batches != [] {
      match InsertAllItems(s, batches[0])
      case Failure(_) =>
      case Success(s1) => SaveEachBatchComplete(s1, batches[1..]);
    }
  }

  /** The store a per-batch run leaves holds exactly some whole batches: all
      of them when no batch was refused, otherwise those before the refused
      one. A run never stops in the middle of a batch. */
  lemma {:induction false} SaveEachBatchPrefix(s: Store, batches: seq<seq<Item>>) returns (k: nat)
    requires WellFormed(s)
    ensures k <= |batches|
    ensures InsertAllItems(s, Flatten(batches[..k])) == Success(SaveEachBatch(s, batches).store)
    ensures SaveEachBatch(s, batches).error.None? <==> k == |batches|
    ensures k < |batches| ==> InsertAllItems(SaveEachBatch(s, batches).store, batches[k]).Failure?
    decreases |batches|
  {
    if batches == [] {
      k := 0;
      assert batches[..0] == [];
    } else {
      var b, rest := batches[0], batches[1..];
      match InsertAllItems(s, b)
      case Failure(e) =>
        k := 0;
        assert batches[..0] == [];
        assert SaveEachBatch(s, batches) == Outcome(s, Some(e));
      case Success(s1) =>
        assert SaveEachBatch(s, batches) == SaveEachBatch(s1, rest);
        var j := SaveEachBatchPrefix(s1, rest);
        k := j + 1;
        assert batches == [b] + rest;
        SavedPrefixStep(s, b, rest, s1, j);
    }
  }

  /** One committed batch followed by `j` more is the first `j + 1` batches. */
  lemma SavedPrefixStep(s: Store, b: seq<Item>, rest: seq<seq<Item>>, s1: Store, j: nat)
    requires WellFormed(s) && InsertAllItems(s, b) == Success(s1) && j <= |rest|
    ensures InsertAllItems(s, Flatten(([b] + rest)[..j + 1])) == InsertAllItems(s1, Flatten(rest[..j]))
  {
    assert ([b] + rest)[..j + 1] == [b] + rest[..j];
    FlattenCons(b, rest[..j]);
    InsertAllItemsAppend(s, b, Flatten(rest[..j]));
  }
}

=== FILE: controllers.dfy ===
/**
 The Spring MVC controllers of the base application (`ItemController`,
 `CategoryController`) over the base mapping. Update and delete check
 `existsById` first and answer 404 without writing; exceptions from the
 save or delete are not caught, so a refused write answers 500.
 Get-by-id and create are `Http.GetById` and `Http.SaveItemBody`/`SaveCategoryBody`;
 `GET /categories/{id}/items` answers as `Resources.CategoryItems`.
 */
module Controllers {
  import opened Wrappers
  import opened Tables
  import opened Paging
  import opened Entities
  import opened Store
  import opened Dao
  import opened Listings
  import opened Http
  import Resources

  /** `GET /items?page&size`: the repository's page of all items. */
  function ListItems(s: Store, page: nat, size: nat): (r: Response<Envelope<Row<Item>>>)
    requires WellFormed(s) && size > 0
    ensures r.Ok? && r.body.content == FindAll(s.items, page, size) && r.body.totalElements == Count(s.items)
    ensures r.body.number == page && r.body.size == size
    ensures r.body.totalPages == CeilDiv(r.body.totalElements, size)
    ensures forall x :: x in r.body.content ==> Stored(s.items, x)
    ensures |r.body.content| > 0 <==> page < r.body.totalPages
  {
    Ok(ListPage(s.items, page, size))
  }

  /** `GET /items?categoryId=c`: routed to the fetch-join query, which
      returns only items of category `c`. */
  function ItemsByCategory(s: Store, c: Id, page: nat, size: nat): (r: Response<Envelope<Row<Item>>>)
    requires WellFormed(s) && size > 0
    ensures r.Ok? && r.body.content == FindByCategory(s, c, page, size)
    ensures r.body.totalElements == CountByCategory(s, c)
    ensures r.body.number == page && r.body.size == size
    ensures r.body.totalPages == CeilDiv(r.body.totalElements, size)
    ensures forall x :: x in r.body.content ==> Stored(s.items, x) && InCategory(c, x.value)
    ensures |r.body.content| > 0 <==> page < r.body.totalPages
  {
    Ok(CategoryPage(s, c, page, size))
  }

  /** The item list answers alike in both applications. */
  lemma ListItemsAgree(s: Store, page: nat, size: nat, categoryId: Option<Id>)
    requires WellFormed(s) && size > 0
    ensures Resources.ListItems(s, page, size, categoryId)
            == match categoryId
               case Some(c) => ItemsByCategory(s, c, page, size)
               case None => ListItems(s, page, size)
  {
  }

  /** `PUT /items/{id}`: 404 and no save for an absent id; otherwise the
      payload is saved under the path id and answered with 200, or refused
      with 500. Only a 200 changes the store. */
  function UpdateItem(s: Store, id: Id, it: Item): (r: (Store, Response<Item>))
    requires WellFormed(s)
    ensures r.1 == Absent <==> id !in s.items.rows
    ensures r.1.Ok? <==> id in s.items.rows && ItemAdmissible(s, it, Some(id))
    ensures r.1 == InternalError <==> id in s.items.rows && !ItemAdmissible(s, it, Some(id))
    ensures !r.1.Ok? ==> r.0 == s
    ensures r.1.Ok? ==>
              && r.1.body == it && Find(r.0.items, id) == Some(it)
              && r.0.categories == s.categories
              && (forall k :: k != id ==> Find(r.0.items, k) == Find(s.items, k))
  {
    if !Exists(s.items, id) then
      (s, Absent)
    else
      match MergeItem(s, id, it)
      case Success((s', _)) => (s', Ok(it))
      case Failure(_) => (s, InternalError)
  }

  /** The two applications change the store alike on an item update, and
      answer differently exactly when a stored row refuses the payload:
      404 from the Jersey resource, 500 from the controller. */
  lemma UpdateItemStatusesDiffer(s: Store, id: Id, it: Item)
    requires WellFormed(s)
    ensures Resources.UpdateItem(s, id, it).0 == UpdateItem(s, id, it).0
    ensures Resources.UpdateItem(s, id, it).1 != UpdateItem(s, id, it).1
            <==> id in s.items.rows && !ItemAdmissible(s, it, Some(id))
  {
  }

  /** A `POST /items` whose body carries a stored id changes the store
      exactly as `PUT /items/{id}` does, and answers 201 where the update
      answers 200: the create overwrites the row instead of adding one. */
  lemma CreateWithStoredIdUpdates(s: Store, id: Id, it: Item)
    requires WellFormed(s) && id in s.items.rows
    ensures SaveItemBody(s, Some(id), it).0 == UpdateItem(s, id, it).0
    ensures SaveItemBody(s, Some(id), it).1.Created? <==> UpdateItem(s, id, it).1.Ok?
  {
  }

  /** The same for `POST /categories` and `PUT /categories/{id}`. */
  lemma CreateCategoryWithStoredIdUpdates(s: Store, id: Id, c: Category)
    requires WellFormed(s) && id in s.categories.rows
    ensures SaveCategoryBody(s, Some(id), c).0 == UpdateCategory(s, id, c).0
    ensures SaveCategoryBody(s, Some(id), c).1.Created? <==> UpdateCategory(s, id, c).1.Ok?
  {
  }

  /** `DELETE /items/{id}`: 404 with no change, or 204 with the row gone. */
  function DeleteItem(s: Store, id: Id): (r: (Store, Response<()>))
    requires WellFormed(s)
    ensures r.1 == NoContent <==> id in s.items.rows
    ensures r.1 != NoContent ==> r.1 == Absent && r.0 == s
    ensures r.1 == NoContent ==>
              && Find(r.0.items, id) == None
              && (forall k :: k != id ==> Find(r.0.items, k) == Find(s.items, k))
              && r.0.categories == s.categories
  {
    if !Exists(s.items, id) then (s, Absent)
    else (RemoveItem(s, id), NoContent)
  }

  /** `PUT /categories/{id}`. */
  function UpdateCategory(s: Store, id: Id, c: Category): (r: (Store, Response<Category>))
    requires WellFormed(s)
    ensures r.1 == Absent <==> id !in s.categories.rows
    ensures r.1.Ok? <==> id in s.categories.rows && CategoryAdmissible(s, c, Some(id))
    ensures r.1 == InternalError <==> id in s.categories.rows && !CategoryAdmissible(s, c, Some(id))
    ensures !r.1.Ok? ==> r.0 == s
    ensures r.1.Ok? ==>
              && r.1.body == c && Find(r.0.categories, id) == Some(c)
              && r.0.items == s.items
              && (forall k :: k != id ==> Find(r.0.categories, k) == Find(s.categories, k))
  {
    if !Exists(s.categories, id) then
      (s, Absent)
    else
      match MergeCategory(s, id, c)
      case Success((s', _)) => (s', Ok(c))
      case Failure(_) => (s, InternalError)
  }

  /** `DELETE /categories/{id}`: 404 with no change for an absent id. Under
      the base mapping a category that items still reference is refused by
      the foreign key (500, no change); otherwise 204 and it is gone. */
  function DeleteCategory(s: Store, id: Id): (r: (Store, Response<()>))
    requires WellFormed(s)
    ensures r.1 == Absent <==> id !in s.categories.rows
    ensures r.1 == InternalError <==>
              id in s.categories.rows && s.schema == BaseSchema && ItemsOfCategory(s, id) != {}
    ensures r.1 != NoContent ==> r.0 == s
    ensures r.1 == NoContent ==>
              && r.0.categories.rows == s.categories.rows - {id}
              && r.0.items.rows == s.items.rows - ItemsOfCategory(s, id)
  {
    if !Exists(s.categories, id) then
      (s, Absent)
    else
      match RemoveCategory(s, id)
      case Success(s') => (s', NoContent)
      case Failure(_) => (s, InternalError)
  }

  /** Under the base mapping a successful category delete leaves every item
      where it was. */
  lemma DeleteCategoryKeepsItems(s: Store, id: Id)
    requires WellFormed(s) && s.schema == BaseSchema
    ensures DeleteCategory(s, id).0.items.rows == s.items.rows
  {
  }
}

=== FILE: dao.dfy ===
/**
 The hand-written Hibernate DAOs of the Jersey variant (`ItemDAO`,
 `CategoryDAO`). Each call is one transaction on the store: the queries read
 it, the writes map to the store operations (`save` is `Insert*`, `update`
 is `Merge*`, `delete` is `Remove*`), and `saveAll` is the one loop, modelled
 here with its flush counter.
 */
module Dao {
  import opened Wrappers
  import opened Tables
  import opened Paging
  import opened Entities
  import opened Store

  /** `FROM Entity` with `setFirstResult(page * size)` and `setMaxResults(size)`:
      at most `size` stored rows, distinct, as many as the count leaves from
      `page * size` on. */
  function FindAll<T>(t: Table<T>, page: nat, size: nat): (r: seq<Row<T>>)
    requires Valid(t)
    ensures |r| <= size
    ensures |r| == PageLength(Count(t), page, size)
    ensures forall x :: x in r ==> Stored(t, x)
    ensures forall i, j :: 0 <= i < j < |r| ==> r[i].id != r[j].id
  {
    var r := PageOf(Contents(t), page, size);
    assert |r| == PageLength(Count(t), page, size) by {
      CountMatchesContents(t);
    }
    assert forall x :: x in r ==> Stored(t, x) by {
      ContentsSound(t);
    }
    assert forall i, j :: 0 <= i < j < |r| ==> r[i].id != r[j].id by {
      var id := (x: Row<T>) => x.id;
      ContentsSound(t);
      PageDistinct(Contents(t), page, size, id);
    }
    r
  }

  /** Every stored row is on one of the pages `0 .. totalPages-1`. */
  lemma FindAllComplete<T>(t: Table<T>, size: nat, k: Id)
    requires Valid(t) && size > 0 && k in t.rows
    ensures exists page: nat, j: nat :: page < CeilDiv(Count(t), size)
              && j < |FindAll(t, page, size)| && FindAll(t, page, size)[j] == Row(k, t.rows[k])
  {
    var idx :| 0 <= idx < |t.order| && t.order[idx] == k;
    CountMatchesContents(t);
    var page, j := PageContaining(Contents(t), size, idx);
    assert FindAll(t, page, size)[j] == Row(k, t.rows[k]);
  }

  /** `SELECT COUNT(e) FROM Entity e`: the number of rows a full listing returns. */
  function CountAll<T>(t: Table<T>): (n: nat)
    requires Valid(t)
    ensures n == |Contents(t)|
  {
    CountMatchesContents(t);
    Count(t)
  }

  /** `countByCategoryId`: the number of items the category filter lists, which
      is at most the number of items. */
  function CountByCategory(s: Store, c: Id): (n: nat)
    requires WellFormed(s)
    ensures n == |Where(s.items, ByCategory(c))|
    ensures n <= CountAll(s.items)
  {
    CountWhereMatchesWhere(s.items, ByCategory(c));
    CountWhere(s.items, ByCategory(c))
  }

  /** `findByCategoryId(c, page, size)`: a page of the items of category `c`,
      as many as `countByCategoryId(c)` leaves from `page * size` on. */
  function FindByCategory(s: Store, c: Id, page: nat, size: nat): (r: seq<Row<Item>>)
    requires WellFormed(s)
    ensures |r| <= size
    ensures |r| == PageLength(CountByCategory(s, c), page, size)
    ensures forall x :: x in r ==> Stored(s.items, x) && InCategory(c, x.value)
  {
    var all := Where(s.items, ByCategory(c));
    var r := PageOf(all, page, size);
    assert |r| == PageLength(CountByCategory(s, c), page, size) by {
      assert |all| == CountByCategory(s, c);
    }
    assert forall x :: x in r ==> Stored(s.items, x) && InCategory(c, x.value) by {
      WhereSound(s.items, ByCategory(c));
    }
    r
  }

  /** Every stored item of category `c` is on one of the pages
      `0 .. ceil(countByCategoryId(c) / size) - 1`. */
  lemma FindByCategoryComplete(s: Store, c: Id, size: nat, k: Id)
    requires WellFormed(s) && size > 0 && k in s.items.rows && InCategory(c, s.items.rows[k])
    ensures exists page: nat, j: nat :: page < CeilDiv(CountByCategory(s, c), size)
              && j < |FindByCategory(s, c, page, size)|
              && FindByCategory(s, c, page, size)[j] == Row(k, s.items.rows[k])
  {
    var all := Where(s.items, ByCategory(c));
    WhereSound(s.items, ByCategory(c));
    var pos :| 0 <= pos < |all| && all[pos] == Row(k, s.items.rows[k]);
    var page, j := PageContaining(all, size, pos);
    assert FindByCategory(s, c, page, size)[j] == Row(k, s.items.rows[k]);
  }

  /** The rows a `saveAll` loop flushes and clears after every 20th persist. */
  const FlushEvery: nat := 20

  /** `CategoryDAO.saveAll`: persists the list in order in one transaction,
      flushing every 20 rows; a refused row rolls the whole transaction back
      and the exception reaches the caller. Returns the outcome and the number
      of intermediate flushes. */
  method SaveAllCategories(s: Store, cs: seq<Category>) returns (r: Result<Store>, flushes: nat)
    requires WellFormed(s)
    ensures r == InsertAllCategories(s, cs)
    ensures r.Success? <==> CategoriesAdmissible(s, cs)
    ensures r.Success? ==> flushes == |cs| / FlushEvery
    ensures flushes * FlushEvery <= |cs|
  {
    InsertAllCategoriesAdmissible(s, cs);
    var cur := s;
    var count := 0;
    flushes := 0;
    while count < |cs|
      invariant count <= |cs| && WellFormed(cur)
      invariant InsertAllCategories(cur, cs[count..]) == InsertAllCategories(s, cs)
      invariant flushes == count / FlushEvery
    {
      assert cs[count..][1..] == cs[count + 1..];
      var step := InsertCategory(cur, cs[count]);
      if step.Failure? {
        return Failure(step.error), flushes;
      }
      cur := step.value.0;
      QuotientStep(count, FlushEvery);
      count := count + 1;
      if count % FlushEvery == 0 {
        flushes := flushes + 1;
      }
    }
    r := Success(cur);
  }

  /** `ItemDAO.saveAll`, the same loop over items. */
  method SaveAllItems(s: Store, xs: seq<Item>) returns (r: Result<Store>, flushes: nat)
    requires WellFormed(s)
    ensures r == InsertAllItems(s, xs)
    ensures r.Success? <==> ItemsAdmissible(s, xs)
    ensures r.Success? ==> flushes == |xs| / FlushEvery
    ensures flushes * FlushEvery <= |xs|
  {
    InsertAllItemsAdmissible(s, xs);
    var cur := s;
    var count := 0;
    flushes := 0;
    while count < |xs|
      invariant count <= |xs| && WellFormed(cur)
      invariant InsertAllItems(cur, xs[count..]) == InsertAllItems(s, xs)
      invariant flushes == count / FlushEvery
    {
      assert xs[count..][1..] == xs[count + 1..];
      var step := InsertItem(cur, xs[count]);
      if step.Failure? {
        return Failure(step.error), flushes;
      }
      cur := step.value.0;
      QuotientStep(count, FlushEvery);
      count := count + 1;
      if count % FlushEvery == 0 {
        flushes := flushes + 1;
      }
    }
    r := Success(cur);
  }
}

=== FILE: entities.dfy ===
/**
 The two entities, Category and Item, and the column constraints their
 mappings declare. The base application and the later variants map the
 same tables slightly differently; `Schema` selects which mapping applies.
 Ids are not part of an entity's state: a row's id is its key in the table.
 */
module Entities {
  import opened Wrappers
  import opened Tables

  /** `code VARCHAR(32) UNIQUE NOT NULL` */
  const CodeLength: nat := 32
  /** `name VARCHAR(128) NOT NULL`, on both tables */
  const NameLength: nat := 128
  /** `sku VARCHAR(64) UNIQUE NOT NULL` */
  const SkuLength: nat := 64
  /** `price DECIMAL(10, 2)`: ten digits in all, so the price in cents has at most ten digits. */
  const PriceCentsBound: int := 10_000_000_000
  /** The range of Java's `Integer`, the type of `stock`. */
  const IntMin: int := -0x8000_0000
  const IntMax: int := 0x7FFF_FFFF

  datatype Category = Category(code: string, name: string)

  /** An item; `category` is the foreign key `category_id`, null when absent.
      `priceCents` is the `DECIMAL(10, 2)` price scaled by 100. */
  datatype Item = Item(
    sku: string,
    name: string,
    description: Option<string>,
    priceCents: int,
    stock: int,
    category: Option<Id>)

  /** BaseSchema: the Spring Data REST application (nullable category, no
      description column, no cascade from Category to its items).
      VariantSchema: the Jersey/Hibernate variant and the later Spring
      variants, which share one mapping (mandatory category, a TEXT
      description, `CascadeType.ALL` on `Category.items`). */
  datatype Schema = BaseSchema | VariantSchema

  predicate ValidCategory(c: Category) {
    |c.code| <= CodeLength && |c.name| <= NameLength
  }

  predicate ValidPrice(cents: int) {
    -PriceCentsBound < cents < PriceCentsBound
  }

  /** The column constraints of one item row under `schema`; that a present
      category id names a stored category is the store's foreign-key check. */
  predicate ValidItem(schema: Schema, it: Item) {
    && |it.sku| <= SkuLength
    && |it.name| <= NameLength
    && ValidPrice(it.priceCents)
    && IntMin <= it.stock <= IntMax
    && (schema == BaseSchema ==> it.description.None?)
    && (schema == VariantSchema ==> it.category.Some?)
  }

  /** Whether the item belongs to category `c` (`i.category.id = :categoryId`). */
  predicate InCategory(c: Id, it: Item) {
    it.category == Some(c)
  }

  /** The filter `WHERE i.category.id = :categoryId` as a predicate value. */
  function ByCategory(c: Id): Item -> bool {
    (it: Item) => InCategory(c, it)
  }
}

=== FILE: http.dfy ===
/**
 HTTP responses, and the two endpoints that the Jersey resources and the
 Spring MVC controllers implement alike: get-by-id and create.
 */
module Http {
  import opened Wrappers
  import opened Tables
  import opened Entities
  import opened Store

  /** The statuses the endpoints answer with. `Created` carries the new row
      with its generated id; `InternalError` is the default answer to an
      exception no handler catches. */
  datatype Response<T> =
    | Ok(body: T)
    | Created(body: T)
    | NoContent
    | Absent
    | InternalError
  {
    function Status(): (code: nat)
      ensures 200 <= code < 600
    {
      match this
      case Ok(_) => 200
      case Created(_) => 201
      case NoContent => 204
      case Absent => 404
      case InternalError => 500
    }
  }

  /** `GET /{id}`: 200 with the stored row, or 404. */
  function GetById<T>(t: Table<T>, id: Id): (r: Response<T>)
    ensures r.Ok? <==> id in t.rows
    ensures r.Ok? ==> Find(t, id) == Some(r.body)
    ensures !r.Ok? ==> r == Absent
  {
    match Find(t, id)
    case Some(x) => Ok(x)
    case None => Absent
  }

  /** `POST`: the row is saved and answered with 201; a refused row raises
      an exception nothing catches, so the answer is 500 and the store is
      as before. */
  function CreateItem(s: Store, it: Item): (r: (Store, Response<Row<Item>>))
    requires WellFormed(s)
    ensures r.1.Created? <==> ItemAdmissible(s, it, None)
    ensures !r.1.Created? ==> r.1 == InternalError && r.0 == s
    ensures r.1.Created? ==>
              && r.1.body.value == it && r.1.body.id !in s.items.rows
              && Find(r.0.items, r.1.body.id) == Some(it)
              && r.0.categories == s.categories
              && Count(r.0.items) == Count(s.items) + 1
  {
    match InsertItem(s, it)
    case Success((s', id)) => (s', Created(Row(id, it)))
    case Failure(_) => (s, InternalError)
  }

  function CreateCategory(s: Store, c: Category): (r: (Store, Response<Row<Category>>))
    requires WellFormed(s)
    ensures r.1.Created? <==> CategoryAdmissible(s, c, None)
    ensures !r.1.Created? ==> r.1 == InternalError && r.0 == s
    ensures r.1.Created? ==>
              && r.1.body.value == c && r.1.body.id !in s.categories.rows
              && Find(r.0.categories, r.1.body.id) == Some(c)
              && r.0.items == s.items
              && Count(r.0.categories) == Count(s.categories) + 1
  {
    match InsertCategory(s, c)
    case Success((s', id)) => (s', Created(Row(id, c)))
    case Failure(_) => (s, InternalError)
  }

  /** Spring Data `save` of a request body, as the base controllers and
      variant2's services call it on `POST`. A body without an id is new and
      persisted as in `CreateItem`. A body carrying an id is not new, so it
      is merged: a stored id is overwritten in place, and the answer is 201
      all the same. */
  function SaveItemBody(s: Store, bodyId: Option<Id>, it: Item): (r: (Store, Response<Row<Item>>))
    requires WellFormed(s)
    ensures !r.1.Created? ==> r.1 == InternalError && r.0 == s
    ensures bodyId.Some? && bodyId.value in s.items.rows ==>
              && (r.1.Created? <==> ItemAdmissible(s, it, bodyId))
              && (r.1.Created? ==>
                    && r.1.body == Row(bodyId.value, it) && Find(r.0.items, bodyId.value) == Some(it)
                    && Count(r.0.items) == Count(s.items) && r.0.categories == s.categories
                    && (forall k :: k != bodyId.value ==> Find(r.0.items, k) == Find(s.items, k)))
    ensures bodyId.None? || bodyId.value !in s.items.rows ==> r == CreateItem(s, it)
  {
    match bodyId
    case None => CreateItem(s, it)
    case Some(id) =>
      match MergeItem(s, id, it)
      case Success((s', k)) => (s', Created(Row(k, it)))
      case Failure(_) => (s, InternalError)
  }

  /** Spring Data `save` of a category body. */
  function SaveCategoryBody(s: Store, bodyId: Option<Id>, c: Category): (r: (Store, Response<Row<Category>>))
    requires WellFormed(s)
    ensures !r.1.Created? ==> r.1 == InternalError && r.0 == s
    ensures bodyId.Some? && bodyId.value in s.categories.rows ==>
              && (r.1.Created? <==> CategoryAdmissible(s, c, bodyId))
              && (r.1.Created? ==>
                    && r.1.body == Row(bodyId.value, c) && Find(r.0.categories, bodyId.value) == Some(c)
                    && Count(r.0.categories) == Count(s.categories) && r.0.items == s.items
                    && (forall k :: k != bodyId.value ==> Find(r.0.categories, k) == Find(s.categories, k)))
    ensures bodyId.None? || bodyId.value !in s.categories.rows ==> r == CreateCategory(s, c)
  {
    match bodyId
    case None => CreateCategory(s, c)
    case Some(id) =>
      match MergeCategory(s, id, c)
      case Success((s', k)) => (s', Created(Row(k, c)))
      case Failure(_) => (s, InternalError)
  }

  /** `session.persist` of a request body, as variant1's DAOs call it on
      `POST`. A body carrying an id is a detached entity, which `persist`
      refuses with an exception nothing catches: 500, nothing stored. */
  function PersistItemBody(s: Store, bodyId: Option<Id>, it: Item): (r: (Store, Response<Row<Item>>))
    requires WellFormed(s)
    ensures r.1.Created? <==> bodyId.None? && ItemAdmissible(s, it, None)
    ensures !r.1.Created? ==> r.1 == InternalError && r.0 == s
    ensures bodyId.None? ==> r == CreateItem(s, it)
  {
    if bodyId.Some? then (s, InternalError) else CreateItem(s, it)
  }

  /** `session.persist` of a category body. */
  function PersistCategoryBody(s: Store, bodyId: Option<Id>, c: Category): (r: (Store, Response<Row<Category>>))
    requires WellFormed(s)
    ensures r.1.Created? <==> bodyId.None? && CategoryAdmissible(s, c, None)
    ensures !r.1.Created? ==> r.1 == InternalError && r.0 == s
    ensures bodyId.None? ==> r == CreateCategory(s, c)
  {
    if bodyId.Some? then (s, InternalError) else CreateCategory(s, c)
  }
}

=== FILE: jersey_services.dfy ===
/**
 The services of the Jersey variant (`ItemService`, `CategoryService`).
 Reads and creates delegate to the DAOs unchanged; update and delete first
 ask `existsById` and throw "not found" for an absent id, before the DAO is
 called. A failure carries no store: the caller keeps the store it had.
 */
module JerseyServices {
  import opened Wrappers
  import opened Tables
  import opened Entities
  import opened Store

  /** `updateItem(id, item)`: an absent id is NotFound and nothing is written;
      otherwise the payload, given the path id, is merged over that row, and
      every other row keeps its state, and its place in the modelled
      insertion order. */
  function UpdateItem(s: Store, id: Id, it: Item): (r: Result<Store>)
    requires WellFormed(s)
    ensures r.Success? <==> id in s.items.rows && ItemAdmissible(s, it, Some(id))
    ensures r.Failure? ==> (r.error == NotFound <==> id !in s.items.rows)
    ensures r.Success? ==>
              && WellFormed(r.value) && r.value.schema == s.schema
              && r.value.categories == s.categories
              && Find(r.value.items, id) == Some(it)
              && (forall k :: k != id ==> Find(r.value.items, k) == Find(s.items, k))
              && r.value.items.order == s.items.order
    ensures r.Success? && Consistent(s) ==> Consistent(r.value)
  {
    if !Exists(s.items, id) then
      Failure(NotFound)
    else
      match MergeItem(s, id, it)
      case Failure(e) => Failure(e)
      case Success((s', _)) => Success(s')
  }

  /** `deleteItem(id)`: an absent id is NotFound; a present one is removed,
      and no other row changes. */
  function DeleteItem(s: Store, id: Id): (r: Result<Store>)
    requires WellFormed(s)
    ensures r.Success? <==> id in s.items.rows
    ensures r.Failure? ==> r.error == NotFound
    ensures r.Success? ==>
              && WellFormed(r.value) && r.value.schema == s.schema
              && r.value.categories == s.categories
              && Find(r.value.items, id) == None
              && (forall k :: k != id ==> Find(r.value.items, k) == Find(s.items, k))
              && Count(r.value.items) == Count(s.items) - 1
    ensures r.Success? && Consistent(s) ==> Consistent(r.value)
  {
    if !Exists(s.items, id) then
      Failure(NotFound)
    else
      var s' := RemoveItem(s, id);
      assert s'.items.rows.Keys == s.items.rows.Keys - {id};
      Success(s')
  }

  /** `updateCategory(id, category)`: as `UpdateItem`, on the category table;
      the items are untouched, so they still belong to the rewritten row. */
  function UpdateCategory(s: Store, id: Id, c: Category): (r: Result<Store>)
    requires WellFormed(s)
    ensures r.Success? <==> id in s.categories.rows && CategoryAdmissible(s, c, Some(id))
    ensures r.Failure? ==> (r.error == NotFound <==> id !in s.categories.rows)
    ensures r.Success? ==>
              && WellFormed(r.value) && r.value.schema == s.schema
              && r.value.items == s.items
              && Find(r.value.categories, id) == Some(c)
              && (forall k :: k != id ==> Find(r.value.categories, k) == Find(s.categories, k))
              && r.value.categories.order == s.categories.order
    ensures r.Success? && Consistent(s) ==> Consistent(r.value)
  {
    if !Exists(s.categories, id) then
      Failure(NotFound)
    else
      match MergeCategory(s, id, c)
      case Failure(e) => Failure(e)
      case Success((s', _)) => Success(s')
  }

  /** `deleteCategory(id)`: an absent id is NotFound; a present one is
      removed with its items under the cascading mapping. Under the base
      mapping a referenced category is refused by the foreign key. */
  function DeleteCategory(s: Store, id: Id): (r: Result<Store>)
    requires WellFormed(s)
    ensures r.Failure? <==> id !in s.categories.rows
                            || (s.schema == BaseSchema && ItemsOfCategory(s, id) != {})
    ensures r.Failure? ==> (r.error == NotFound <==> id !in s.categories.rows)
    ensures s.schema == VariantSchema ==> (r.Success? <==> id in s.categories.rows)
    ensures r.Success? ==>
              && WellFormed(r.value) && r.value.schema == s.schema
              && r.value.categories.rows == s.categories.rows - {id}
              && r.value.items.rows == s.items.rows - ItemsOfCategory(s, id)
  {
    if !Exists(s.categories, id) then
      Failure(NotFound)
    else
      RemoveCategory(s, id)
  }

  /** After a successful category delete no remaining item belongs to the
      removed category, and every item of another category is still there. */
  lemma DeleteCategoryCascades(s: Store, id: Id)
    requires WellFormed(s)
    requires DeleteCategory(s, id).Success?
    ensures forall k :: k in DeleteCategory(s, id).value.items.rows ==>
              !InCategory(id, DeleteCategory(s, id).value.items.rows[k])
    ensures forall k :: k in s.items.rows && !InCategory(id, s.items.rows[k]) ==>
              k in DeleteCategory(s, id).value.items.rows
  {
  }
}

=== FILE: listings.dfy ===
/**
 The paged list responses: a page of rows together with the count it was
 cut from. The Jersey resources build this map by hand
 (`content`, `totalElements`, `totalPages`, `number`, `size`); the Spring
 variants return a `Page` with the same fields.
 */
module Listings {
  import opened Tables
  import opened Paging
  import opened Entities
  import opened Store
  import opened Dao

  /** Page `page` of all rows of `t`, with `totalElements = count()`. */
  function ListPage<T>(t: Table<T>, page: nat, size: nat): (e: Envelope<Row<T>>)
    requires Valid(t) && size > 0
    ensures e.content == FindAll(t, page, size) && e.totalElements == Count(t)
    ensures e.number == page && e.size == size
    ensures e.totalPages == CeilDiv(e.totalElements, size)
    ensures |e.content| > 0 <==> page < e.totalPages
    ensures page + 1 < e.totalPages ==> |e.content| == size
    ensures page + 1 == e.totalPages ==> |e.content| == Count(t) - page * size
  {
    PageLengthBounds(Count(t), page, size);
    MakeEnvelope(FindAll(t, page, size), Count(t), page, size)
  }

  /** Page `page` of the items of category `c`, with
      `totalElements = countByCategoryId(c)`. */
  function CategoryPage(s: Store, c: Id, page: nat, size: nat): (e: Envelope<Row<Item>>)
    requires WellFormed(s) && size > 0
    ensures e.content == FindByCategory(s, c, page, size) && e.totalElements == CountByCategory(s, c)
    ensures e.number == page && e.size == size
    ensures e.totalPages == CeilDiv(e.totalElements, size)
    ensures |e.content| > 0 <==> page < e.totalPages
    ensures page + 1 < e.totalPages ==> |e.content| == size
    ensures forall x :: x in e.content ==> Stored(s.items, x) && InCategory(c, x.value)
  {
    PageLengthBounds(CountByCategory(s, c), page, size);
    MakeEnvelope(FindByCategory(s, c, page, size), CountByCategory(s, c), page, size)
  }
}

=== FILE: paging.dfy ===
/**
 Offset/limit paging (`setFirstResult(page * size)`, `setMaxResults(size)`)
 and the page envelope the list endpoints return:
 `{content, totalElements, totalPages = ceil(totalElements / size), number, size}`.
 */
module Paging {

  function Min(a: nat, b: nat): nat {
    if a <= b then a else b
  }

  /** At most `limit` elements of `xs`, starting at position `offset`. */
  function Slice<T>(xs: seq<T>, offset: nat, limit: nat): (r: seq<T>)
    ensures |r| == if offset >= |xs| then 0 else Min(limit, |xs| - offset)
    ensures forall i :: 0 <= i < |r| ==> r[i] == xs[offset + i]
    ensures forall x :: x in r ==> x in xs
  {
    if offset >= |xs| then [] else xs[offset..offset + Min(limit, |xs| - offset)]
  }

  /** How many of `total` elements page `page` of `size` elements holds. */
  function PageLength(total: nat, page: nat, size: nat): nat {
    if page * size >= total then 0 else Min(size, total - page * size)
  }

  /** Page `page` (zero-based) of `size` elements. */
  function PageOf<T>(xs: seq<T>, page: nat, size: nat): (r: seq<T>)
    ensures |r| <= size
    ensures |r| == PageLength(|xs|, page, size)
    ensures forall i :: 0 <= i < |r| ==> r[i] == xs[page * size + i]
    ensures forall x :: x in r ==> x in xs
  {
    Slice(xs, page * size, size)
  }

  /** A page of a list whose elements have pairwise distinct keys has
      pairwise distinct keys too. */
  lemma PageDistinct<T, K>(xs: seq<T>, page: nat, size: nat, key: T -> K)
    requires forall i, j :: 0 <= i < j < |xs| ==> key(xs[i]) != key(xs[j])
    ensures forall i, j :: 0 <= i < j < |PageOf(xs, page, size)| ==>
              key(PageOf(xs, page, size)[i]) != key(PageOf(xs, page, size)[j])
  {
    var r, off := PageOf(xs, page, size), page * size;
    forall i, j | 0 <= i < j < |r|
      ensures key(r[i]) != key(r[j])
    {
      assert r[i] == xs[off + i] && r[j] == xs[off + j];
    }
  }

  /** The least number of pages of `d` elements that hold `n` elements. */
  function CeilDiv(n: nat, d: nat): (q: nat)
    requires d > 0
    ensures q * d >= n
    ensures q > 0 ==> (q - 1) * d < n
  {
    var q := (n + d - 1) / d;
    assert (n + d - 1) == q * d + (n + d - 1) % d;
    assert (q - 1) * d == q * d - d;
    q
  }

  datatype Envelope<T> = Envelope(content: seq<T>, totalElements: nat, totalPages: nat, number: nat, size: nat)

  /** The response map the list endpoints build. `Math.ceil` on doubles is
      integer ceiling division here. */
  function MakeEnvelope<T>(content: seq<T>, total: nat, page: nat, size: nat): (e: Envelope<T>)
    requires size > 0
    ensures e.totalPages * size >= total
    ensures e.totalPages > 0 ==> (e.totalPages - 1) * size < total
    ensures e.content == content && e.totalElements == total && e.number == page && e.size == size
  {
    Envelope(content, total, CeilDiv(total, size), page, size)
  }

  lemma MulMono(a: nat, b: nat, d: nat)
    requires a <= b
    ensures a * d <= b * d
  {
  }

  /** A page is non-empty exactly when its number is below
      `ceil(total / size)`; every page before the last is full, and the last
      page holds the rest. */
  lemma PageLengthBounds(total: nat, page: nat, size: nat)
    requires size > 0
    ensures PageLength(total, page, size) > 0 <==> page < CeilDiv(total, size)
    ensures page + 1 < CeilDiv(total, size) ==> PageLength(total, page, size) == size
    ensures page + 1 == CeilDiv(total, size) ==> PageLength(total, page, size) == total - page * size
  {
    var tp := CeilDiv(total, size);
    if page < tp {
      MulMono(page, tp - 1, size);
      assert page * size < total;
    } else {
      MulMono(tp, page, size);
    }
    if page + 1 < tp {
      MulMono(page + 1, tp - 1, size);
      assert (page + 1) * size == page * size + size;
    }
    if page + 1 == tp {
      assert tp * size == page * size + size;
    }
  }

  /** The envelope of page `page` of `xs` is self-consistent. */
  lemma EnvelopeOfPage<T>(xs: seq<T>, page: nat, size: nat)
    requires size > 0
    ensures var e := MakeEnvelope(PageOf(xs, page, size), |xs|, page, size);
            && (|e.content| > 0 <==> page < e.totalPages)
            && (page + 1 < e.totalPages ==> |e.content| == size)
            && (page + 1 == e.totalPages ==> |e.content| == |xs| - page * size)
  {
    PageLengthBounds(|xs|, page, size);
  }

  /** Pages `0 .. k-1` one after another. */
  function Pages<T>(xs: seq<T>, size: nat, k: nat): seq<T> {
    if k == 0 then [] else Pages(xs, size, k - 1) + PageOf(xs, k - 1, size)
  }

  lemma {:induction false} PagesPrefix<T>(xs: seq<T>, size: nat, k: nat)
    ensures Pages(xs, size, k) == xs[..Min(k * size, |xs|)]
  {
    if k > 0 {
      PagesPrefix(xs, size, k - 1);
      assert k * size == (k - 1) * size + size;
    }
  }

  /** Reading pages `0 .. totalPages-1` returns every element exactly once,
      in order; pages from `totalPages` on are empty. */
  lemma PagesCover<T>(xs: seq<T>, size: nat, page: nat)
    requires size > 0
    ensures Pages(xs, size, CeilDiv(|xs|, size)) == xs
    ensures page >= CeilDiv(|xs|, size) ==> PageOf(xs, page, size) == []
  {
    var tp := CeilDiv(|xs|, size);
    PagesPrefix(xs, size, tp);
    if page >= tp {
      MulMono(tp, page, size);
    }
  }

  /** Element `idx` is on page `idx / size`, at position `idx % size`, and
      that page is one of the first `totalPages`. */
  lemma PageContaining<T>(xs: seq<T>, size: nat, idx: nat) returns (page: nat, j: nat)
    requires size > 0 && idx < |xs|
    ensures page < CeilDiv(|xs|, size)
    ensures j < |PageOf(xs, page, size)| && PageOf(xs, page, size)[j] == xs[idx]
  {
    page, j := idx / size, idx % size;
    assert idx == page * size + j;
    var tp := CeilDiv(|xs|, size);
    if tp <= page {
      MulMono(tp, page, size);
    }
  }

  lemma {:induction false} MulAtLeast(k: int, c: nat)
    requires k >= 1
    ensures k * c >= c
  {
    if k > 1 {
      MulAtLeast(k - 1, c);
      assert k * c == (k - 1) * c + c;
    }
  }

  /** Euclidean division has one quotient and remainder. */
  lemma QuotientOf(n: nat, cap: nat, q: nat, rest: nat)
    requires cap > 0 && q * cap + rest == n && rest < cap
    ensures q == n / cap && rest == n % cap
  {
    var d, m := n / cap, n % cap;
    assert n == d * cap + m;
    assert (q - d) * cap == m - rest;
    if q > d {
      MulAtLeast(q - d, cap);
    } else if q < d {
      assert (d - q) * cap == rest - m;
      MulAtLeast(d - q, cap);
    }
  }

  /** Counting one more step adds one multiple of `d` exactly when the new
      count is one. */
  lemma QuotientStep(n: nat, d: nat)
    requires d > 0
    ensures (n + 1) / d == n / d + (if (n + 1) % d == 0 then 1 else 0)
  {
    var q, m := n / d, n % d;
    if m + 1 == d {
      QuotientOf(n + 1, d, q + 1, 0);
    } else {
      QuotientOf(n + 1, d, q, m + 1);
    }
  }
}

=== FILE: resources.dfy ===
/**
 The JAX-RS resources of the Jersey variant (`ItemResource`,
 `CategoryResource`): the list envelopes, and the mapping of service
 outcomes to statuses. Update and delete catch every RuntimeException and
 answer 404, so a refused write to a stored row is reported as "not found".
 Get-by-id and create are `Http.GetById` and `Http.PersistItemBody`/`PersistCategoryBody`.
 */
module Resources {
  import opened Wrappers
  import opened Tables
  import opened Paging
  import opened Entities
  import opened Store
  import opened Dao
  import opened Listings
  import opened Http
  import JerseyServices
  import SpringServices

  /** `GET /items?page&size[&categoryId]`: with a category, the content and
      `totalElements` both come from the category filter; without one, from
      the whole table. */
  function ListItems(s: Store, page: nat, size: nat, categoryId: Option<Id>): (r: Response<Envelope<Row<Item>>>)
    requires WellFormed(s) && size > 0
    ensures r.Ok? && r.body.number == page && r.body.size == size
    ensures categoryId.Some? ==>
              && r.body.content == FindByCategory(s, categoryId.value, page, size)
              && r.body.totalElements == CountByCategory(s, categoryId.value)
              && (forall x :: x in r.body.content ==> Stored(s.items, x) && InCategory(categoryId.value, x.value))
    ensures categoryId.None? ==>
              && r.body.content == FindAll(s.items, page, size)
              && r.body.totalElements == Count(s.items)
              && (forall x :: x in r.body.content ==> Stored(s.items, x))
    ensures |r.body.content| > 0 <==> page < r.body.totalPages
    ensures r.body.totalPages == CeilDiv(r.body.totalElements, size)
  {
    match categoryId
    case Some(c) => Ok(CategoryPage(s, c, page, size))
    case None => Ok(ListPage(s.items, page, size))
  }

  /** `GET /categories?page&size`. */
  function ListCategories(s: Store, page: nat, size: nat): (r: Response<Envelope<Row<Category>>>)
    requires WellFormed(s) && size > 0
    ensures r.Ok? && r.body.number == page && r.body.size == size
    ensures r.body.content == FindAll(s.categories, page, size) && r.body.totalElements == Count(s.categories)
    ensures forall x :: x in r.body.content ==> Stored(s.categories, x)
    ensures |r.body.content| > 0 <==> page < r.body.totalPages
    ensures r.body.totalPages == CeilDiv(r.body.totalElements, size)
  {
    Ok(ListPage(s.categories, page, size))
  }

  /** `GET /categories/{id}/items`: 404 for an absent category, decided
      before any item is read; otherwise the category's page of items. */
  function CategoryItems(s: Store, id: Id, page: nat, size: nat): (r: Response<Envelope<Row<Item>>>)
    requires WellFormed(s) && size > 0
    ensures r.Ok? <==> id in s.categories.rows
    ensures !r.Ok? ==> r == Absent
    ensures r.Ok? ==>
              && r.body.content == FindByCategory(s, id, page, size)
              && r.body.totalElements == CountByCategory(s, id)
              && r.body.number == page && r.body.size == size
              && r.body.totalPages == CeilDiv(r.body.totalElements, size)
              && (forall x :: x in r.body.content ==> Stored(s.items, x) && InCategory(id, x.value))
              && (|r.body.content| > 0 <==> page < r.body.totalPages)
  {
    if !Exists(s.categories, id) then Absent
    else Ok(CategoryPage(s, id, page, size))
  }

  /** `PUT /items/{id}`: 200 with the payload when the service update
      succeeds; 404 for an absent id and for a refused payload alike, with the
      store as before. */
  function UpdateItem(s: Store, id: Id, it: Item): (r: (Store, Response<Item>))
    requires WellFormed(s)
    ensures r.1.Ok? <==> id in s.items.rows && ItemAdmissible(s, it, Some(id))
    ensures !r.1.Ok? ==> r.1 == Absent && r.0 == s
    ensures r.1.Ok? ==> r.1.body == it && Find(r.0.items, id) == Some(it) && r.0.categories == s.categories
  {
    match JerseyServices.UpdateItem(s, id, it)
    case Success(s') => (s', Ok(it))
    case Failure(_) => (s, Absent)
  }

  /** `DELETE /items/{id}`: 204 and the row is gone, or 404 for an absent id. */
  function DeleteItem(s: Store, id: Id): (r: (Store, Response<()>))
    requires WellFormed(s)
    ensures r.1 == NoContent <==> id in s.items.rows
    ensures r.1 != NoContent ==> r.1 == Absent && r.0 == s
    ensures r.1 == NoContent ==> Find(r.0.items, id) == None && Count(r.0.items) == Count(s.items) - 1
  {
    match JerseyServices.DeleteItem(s, id)
    case Success(s') => (s', NoContent)
    case Failure(_) => (s, Absent)
  }

  /** `PUT /categories/{id}`. */
  function UpdateCategory(s: Store, id: Id, c: Category): (r: (Store, Response<Category>))
    requires WellFormed(s)
    ensures r.1.Ok? <==> id in s.categories.rows && CategoryAdmissible(s, c, Some(id))
    ensures !r.1.Ok? ==> r.1 == Absent && r.0 == s
    ensures r.1.Ok? ==> r.1.body == c && Find(r.0.categories, id) == Some(c) && r.0.items == s.items
  {
    match JerseyServices.UpdateCategory(s, id, c)
    case Success(s') => (s', Ok(c))
    case Failure(_) => (s, Absent)
  }

  /** `DELETE /categories/{id}`: under the cascading mapping, 204 and the
      category is gone with its items, or 404 for an absent id. */
  function DeleteCategory(s: Store, id: Id): (r: (Store, Response<()>))
    requires WellFormed(s)
    ensures s.schema == VariantSchema ==> (r.1 == NoContent <==> id in s.categories.rows)
    ensures r.1 != NoContent ==> r.1 == Absent && r.0 == s
    ensures r.1 == NoContent ==>
              && r.0.categories.rows == s.categories.rows - {id}
              && r.0.items.rows == s.items.rows - ItemsOfCategory(s, id)
  {
    match JerseyServices.DeleteCategory(s, id)
    case Success(s') => (s', NoContent)
    case Failure(_) => (s, Absent)
  }

  /** In variants 1 and 2 the item's category is ignored when a request body
      is read, and the column is `NOT NULL`. So an item that arrives as JSON
      has no category, and every write of it is refused: a create answers
      500, the Jersey update answers 404, and the variant2 update, which
      copies the missing category onto the stored row, fails. */
  lemma JsonItemBodyRefused(s: Store, id: Id, bodyId: Option<Id>, it: Item)
    requires WellFormed(s) && s.schema == VariantSchema && it.category.None?
    ensures PersistItemBody(s, bodyId, it) == (s, InternalError)
    ensures CreateItem(s, it) == (s, InternalError)
    ensures UpdateItem(s, id, it) == (s, Absent)
    ensures SpringServices.UpdateItem(s, id, it).Failure?
  {
    VariantItemNeedsCategory(s, it);
  }
}

=== FILE: seed_base.dfy ===
/**
 The seed generator of the base application (`DataGeneratorService`). On a
 store with no category and no item it builds 2000 categories, saves them,
 then builds 100000 items that each point at one of them, saving the items
 every 1000. The whole run is one transaction: it stores everything or
 nothing. Faker and the random generator are parameters: `depts(i)` and
 `draws(i)` are the values drawn while building the `i`-th category and item.
 */
module BaseSeed {
  import opened Wrappers
  import opened Tables
  import opened Text
  import opened Entities
  import opened Store
  import opened Batches
  import opened Paging

  const CategoryCount: nat := 2000
  const ItemCount: nat := 100_000
  /** The accumulated items are saved whenever their number is a multiple of this. */
  const FlushSize: nat := 1000
  /** Department tokens are cut to this many characters. */
  const TokenLength: nat := 25

  /** The characters the pattern `[^a-zA-Z0-9.-]` does not remove. */
  predicate TokenChar(c: char) {
    'a' <= c <= 'z' || 'A' <= c <= 'Z' || '0' <= c <= '9' || c == '.' || c == '-'
  }

  /** `replaceAll("[^a-zA-Z0-9.-]", "")`: the token characters of `s`, each
      as often as in `s`, and nothing else. */
  function Sanitize(s: string): (r: string)
    ensures forall c :: c in r ==> TokenChar(c)
    decreases |s|
  {
    if s == [] then [] else (if TokenChar(s[0]) then [s[0]] else []) + Sanitize(s[1..])
  }

  /** Every token character of `s` stays, as often as it occurs. */
  lemma {:induction false} SanitizeKeeps(s: string)
    ensures forall c :: TokenChar(c) ==> multiset(Sanitize(s))[c] == multiset(s)[c]
    decreases |s|
  {
    if s != [] {
      assert s == [s[0]] + s[1..];
      SanitizeKeeps(s[1..]);
    }
  }

  /** Removing characters keeps the order of those that stay. */
  lemma {:induction false} SanitizeAppend(a: string, b: string)
    ensures Sanitize(a + b) == Sanitize(a) + Sanitize(b)
    decreases |a|
  {
    if a == [] {
      assert a + b == b;
    } else {
      var head := if TokenChar(a[0]) then [a[0]] else [];
      assert (a + b)[0] == a[0];
      assert (a + b)[1..] == a[1..] + b;
      assert Sanitize(a + b) == head + Sanitize(a[1..] + b);
      SanitizeAppend(a[1..], b);
    }
  }

  /** The department token of a code: sanitized, lower-cased, and cut to 25
      characters when longer. */
  function DepartmentToken(raw: string): (r: string)
    ensures |r| <= TokenLength
    ensures forall i :: 0 <= i < |r| ==> TokenChar(r[i]) && !IsUpper(r[i])
    ensures '_' !in r
    ensures |Sanitize(raw)| <= TokenLength ==> |r| == |Sanitize(raw)|
    ensures |Sanitize(raw)| > TokenLength ==> |r| == TokenLength
    ensures r == Lower(Sanitize(raw))[..|r|]
  {
    var t := Lower(Sanitize(raw));
    assert forall i :: 0 <= i < |t| ==> TokenChar(t[i]) by {
      forall i | 0 <= i < |t| ensures TokenChar(t[i]) {
        assert Sanitize(raw)[i] in Sanitize(raw);
      }
    }
    if |t| > TokenLength then t[..TokenLength] else t
  }

  /** `department + "_" + i`. */
  function CategoryCode(raw: string, i: nat): string {
    Suffixed(DepartmentToken(raw), i)
  }

  /** Codes with different numbers never collide, whatever departments were
      drawn: the number after the only underscore tells them apart. */
  lemma CategoryCodesDistinct(a: string, i: nat, b: string, j: nat)
    ensures CategoryCode(a, i) == CategoryCode(b, j) ==> i == j && DepartmentToken(a) == DepartmentToken(b)
  {
    if CategoryCode(a, i) == CategoryCode(b, j) {
      SuffixedInjective(DepartmentToken(a), i, DepartmentToken(b), j);
    }
  }

  /** A code numbered below 2000 fits `VARCHAR(32)`: at most 25 + 1 + 4 characters. */
  lemma CategoryCodeFits(raw: string, i: nat)
    requires i < CategoryCount
    ensures |CategoryCode(raw, i)| <= TokenLength + 5 <= CodeLength
  {
    assert Pow10(4) == 10000;
    DecimalLength(i, 4);
    SuffixedLength(DepartmentToken(raw), i);
  }

  /** The two `department()` draws of one category: one for the code, one for the name. */
  datatype DepartmentDraw = DepartmentDraw(raw: string, name: string)

  /** The category list, in the order it is handed to `saveAll`. */
  function SeedCategories(depts: nat -> DepartmentDraw): (r: seq<Category>)
    ensures |r| == CategoryCount
  {
    seq(CategoryCount, i requires 0 <= i < CategoryCount => Category(CategoryCode(depts(i).raw, i), depts(i).name))
  }

  predicate CategoryNamesFit(depts: nat -> DepartmentDraw) {
    forall i :: 0 <= i < CategoryCount ==> |depts(i).name| <= NameLength
  }

  /** On a store without categories the category list is saved exactly when
      every drawn name fits its column: the codes always fit and never collide. */
  lemma SeedCategoriesAdmissible(s: Store, depts: nat -> DepartmentDraw)
    requires WellFormed(s) && s.categories.rows == map[]
    ensures CategoriesAdmissible(s, SeedCategories(depts)) <==> CategoryNamesFit(depts)
  {
    var cs := SeedCategories(depts);
    forall i | 0 <= i < CategoryCount
      ensures CategoryAdmissible(s, cs[i], None) <==> |depts(i).name| <= NameLength
    {
      CategoryCodeFits(depts(i).raw, i);
    }
    forall i, j | 0 <= i < j < CategoryCount
      ensures cs[i].code != cs[j].code
    {
      CategoryCodesDistinct(depts(i).raw, i, depts(j).raw, j);
    }
  }

  /** The draws for one item: `ean13()`, `productName()`,
      `randomDouble(2, 1, 1000)` in cents, `numberBetween(0, 1000)`, and the
      index `nextInt(0, categories.size())` of its category in the list. */
  datatype ItemDraw = ItemDraw(ean: string, name: string, priceCents: int, stock: int, pick: nat)

  predicate InDrawRange(d: ItemDraw) {
    && |d.ean| == 13 && AllDigits(d.ean)
    && 100 <= d.priceCents <= 100_000
    && 0 <= d.stock < 1000
    && d.pick < CategoryCount
  }

  type BaseDraw = d: ItemDraw | InDrawRange(d) witness ItemDraw("0000000000000", "", 100, 0, 0)

  /** The item built from one draw; `firstCategory` is the id the first saved
      category received, so `pick` selects the category saved `pick`-th. */
  function SeedItem(firstCategory: Id, d: BaseDraw): Item {
    Item(d.ean, d.name, None, d.priceCents, d.stock, Some(firstCategory + d.pick))
  }

  function SeedItems(firstCategory: Id, draws: nat -> BaseDraw): (r: seq<Item>)
    ensures |r| == ItemCount
  {
    seq(ItemCount, i requires 0 <= i < ItemCount => SeedItem(firstCategory, draws(i)))
  }

  predicate ItemNamesFit(draws: nat -> BaseDraw) {
    forall i :: 0 <= i < ItemCount ==> |draws(i).name| <= NameLength
  }

  /** `ean13()` is random, so two items may draw the same SKU. */
  predicate EansDistinct(draws: nat -> BaseDraw) {
    forall i, j :: 0 <= i < j < ItemCount ==> draws(i).ean != draws(j).ean
  }

  /** Once the categories are stored under consecutive ids, the item list is
      saved exactly when every product name fits and no EAN repeats: SKU,
      price, stock and category reference always satisfy their constraints. */
  lemma SeedItemsAdmissible(s1: Store, firstCategory: Id, cs: seq<Category>, draws: nat -> BaseDraw)
    requires WellFormed(s1) && s1.schema == BaseSchema && s1.items.rows == map[]
    requires |cs| == CategoryCount
    requires forall i :: 0 <= i < |cs| ==> Stored(s1.categories, Numbered(firstCategory, cs)[i])
    ensures ItemsAdmissible(s1, SeedItems(firstCategory, draws)) <==> ItemNamesFit(draws) && EansDistinct(draws)
  {
    var xs := SeedItems(firstCategory, draws);
    forall i | 0 <= i < ItemCount
      ensures ItemAdmissible(s1, xs[i], None) <==> |draws(i).name| <= NameLength
    {
      SeedItemAdmissible(s1, firstCategory, cs, draws(i));
    }
  }

  lemma SeedItemAdmissible(s1: Store, firstCategory: Id, cs: seq<Category>, d: BaseDraw)
    requires WellFormed(s1) && s1.schema == BaseSchema && s1.items.rows == map[]
    requires |cs| == CategoryCount
    requires forall i :: 0 <= i < |cs| ==> Stored(s1.categories, Numbered(firstCategory, cs)[i])
    ensures ItemAdmissible(s1, SeedItem(firstCategory, d), None) <==> |d.name| <= NameLength
  {
    assert Stored(s1.categories, Numbered(firstCategory, cs)[d.pick]);
  }

  /** `generateData()`, all-or-nothing: nothing happens on a seeded store;
      otherwise the categories are saved, then the items, and a refused row
      rolls the whole run back. */
  function SeedRun(s: Store, depts: nat -> DepartmentDraw, draws: nat -> BaseDraw): (r: Result<Store>)
    requires WellFormed(s)
    ensures r.Failure? ==> r.error == ConstraintViolation
    ensures r.Success? ==> WellFormed(r.value) && r.value.schema == s.schema
  {
    if Seeded(s) then Success(s)
    else
      match InsertAllCategories(s, SeedCategories(depts))
      case Failure(e) => Failure(e)
      case Success(s1) => InsertAllItems(s1, SeedItems(s.categories.next, draws))
  }

  /** On an empty store the run succeeds exactly when every drawn name fits
      and no EAN repeats. */
  lemma SeedRunSucceeds(s: Store, depts: nat -> DepartmentDraw, draws: nat -> BaseDraw)
    requires WellFormed(s) && s.schema == BaseSchema && !Seeded(s)
    ensures SeedRun(s, depts, draws).Success? <==>
              CategoryNamesFit(depts) && ItemNamesFit(draws) && EansDistinct(draws)
  {
    EmptyContents(s.categories);
    EmptyContents(s.items);
    var cs := SeedCategories(depts);
    assert InsertAllCategories(s, cs).Success? <==> CategoryNamesFit(depts) by {
      SeedCategoriesAdmissible(s, depts);
      InsertAllCategoriesAdmissible(s, cs);
    }
    if InsertAllCategories(s, cs).Success? {
      var s1 := InsertAllCategories(s, cs).value;
      assert SeedRun(s, depts, draws) == InsertAllItems(s1, SeedItems(s.categories.next, draws));
      ItemStepSucceeds(s, cs, s1, draws);
    }
  }

  /** The item step of a run on an empty store, after its categories were saved. */
  lemma ItemStepSucceeds(s: Store, cs: seq<Category>, s1: Store, draws: nat -> BaseDraw)
    requires WellFormed(s) && s.schema == BaseSchema && s.items.rows == map[] && |cs| == CategoryCount
    requires InsertAllCategories(s, cs) == Success(s1)
    ensures InsertAllItems(s1, SeedItems(s.categories.next, draws)).Success? <==>
              ItemNamesFit(draws) && EansDistinct(draws)
  {
    InsertAllCategoriesStored(s, cs, s1);
    SavedItemsSucceed(s1, s.categories.next, cs, draws);
  }

  lemma SavedItemsSucceed(s1: Store, firstCategory: Id, cs: seq<Category>, draws: nat -> BaseDraw)
    requires WellFormed(s1) && s1.schema == BaseSchema && s1.items.rows == map[]
    requires |cs| == CategoryCount
    requires forall i :: 0 <= i < |cs| ==> Stored(s1.categories, Numbered(firstCategory, cs)[i])
    ensures InsertAllItems(s1, SeedItems(firstCategory, draws)).Success? <==>
              ItemNamesFit(draws) && EansDistinct(draws)
  {
    SeedItemsAdmissible(s1, firstCategory, cs, draws);
    InsertAllItemsAdmissible(s1, SeedItems(firstCategory, draws));
  }

  /** A successful run on an empty store leaves exactly the generated rows,
      in generation order under consecutive ids. */
  lemma SeedRunContents(s: Store, depts: nat -> DepartmentDraw, draws: nat -> BaseDraw)
    requires WellFormed(s) && !Seeded(s) && SeedRun(s, depts, draws).Success?
    ensures Contents(SeedRun(s, depts, draws).value.categories)
            == Numbered(s.categories.next, SeedCategories(depts))
    ensures Contents(SeedRun(s, depts, draws).value.items)
            == Numbered(s.items.next, SeedItems(s.categories.next, draws))
  {
    EmptyContents(s.categories);
    EmptyContents(s.items);
    var cs := SeedCategories(depts);
    var s1 := InsertAllCategories(s, cs).value;
    InsertAllCategoriesContents(s, cs);
    InsertAllItemsContents(s1, SeedItems(s.categories.next, draws));
  }

  /** A successful run keeps every constraint, the foreign key from each
      item to its category included. */
  lemma SeedRunConsistent(s: Store, depts: nat -> DepartmentDraw, draws: nat -> BaseDraw)
    requires Consistent(s) && SeedRun(s, depts, draws).Success?
    ensures Consistent(SeedRun(s, depts, draws).value)
  {
    if !Seeded(s) {
      var cs := SeedCategories(depts);
      InsertAllCategoriesConsistent(s, cs);
      InsertAllItemsConsistent(InsertAllCategories(s, cs).value, SeedItems(s.categories.next, draws));
    }
  }

  /** Running the generator again after a successful run changes nothing,
      whatever it would draw: the first run left categories behind. */
  lemma SeedRunIdempotent(s: Store, depts: nat -> DepartmentDraw, draws: nat -> BaseDraw,
                          depts': nat -> DepartmentDraw, draws': nat -> BaseDraw)
    requires WellFormed(s) && SeedRun(s, depts, draws).Success?
    ensures var s' := SeedRun(s, depts, draws).value;
            SeedRun(s', depts', draws') == Success(s')
  {
    if !Seeded(s) {
      var cs := SeedCategories(depts);
      var s1 := InsertAllCategories(s, cs).value;
      InsertAllCategoriesStored(s, cs, s1);
      assert Stored(s1.categories, Numbered(s.categories.next, cs)[0]);
      assert Count(SeedRun(s, depts, draws).value.categories) > 0;
    }
  }

  lemma FullBatch(x: nat, cap: nat)
    requires 0 < x <= cap
    ensures x % cap == 0 <==> x == cap
  {
    if x < cap {
      assert x % cap == x;
    }
  }

  /** The accumulator loop: items are added one by one, and the accumulated
      list is saved and cleared whenever its size is a multiple of `cap`; a
      non-empty remainder is saved after the loop. The batches are the items
      cut into consecutive pieces of `cap`, the last one possibly shorter, so
      no more than `cap` items are ever held. */
  method Accumulate<T>(xs: seq<T>, cap: nat) returns (batches: seq<seq<T>>)
    requires cap > 0
    ensures Flatten(batches) == xs
    ensures forall b :: b in batches ==> 0 < |b| <= cap
    ensures forall k :: 0 <= k < |batches| - 1 ==> |batches[k]| == cap
    ensures |xs| % cap == 0 ==> forall b :: b in batches ==> |b| == cap
    ensures |batches| == |xs| / cap + (if |xs| % cap == 0 then 0 else 1)
  {
    batches := [];
    var acc: seq<T> := [];
    var i := 0;
    while i < |xs|
      invariant i <= |xs| && Accumulated(xs, cap, i, batches, acc)
    {
      AccumulateStep(xs, cap, i, batches, acc);
      acc := acc + [xs[i]];
      if |acc| % cap == 0 {
        batches := batches + [acc];
        acc := [];
      }
      i := i + 1;
    }
    assert xs[..i] == xs;
    FinalFlush(xs, cap, batches, acc);
    if acc != [] {
      batches := batches + [acc];
    }
  }

  /** The loop invariant: the saved batches and the accumulator together
      hold the first `i` items, every saved batch is full, and the
      accumulator is below capacity. */
  ghost predicate Accumulated<T>(xs: seq<T>, cap: nat, i: nat, batches: seq<seq<T>>, acc: seq<T>)
    requires i <= |xs|
  {
    && Flatten(batches) + acc == xs[..i]
    && |acc| < cap
    && (forall b :: b in batches ==> |b| == cap)
    && |batches| * cap + |acc| == i
  }

  lemma AccumulateStep<T>(xs: seq<T>, cap: nat, i: nat, batches: seq<seq<T>>, acc: seq<T>)
    requires i < |xs| && Accumulated(xs, cap, i, batches, acc)
    ensures var acc' := acc + [xs[i]];
            if |acc'| % cap == 0 then Accumulated(xs, cap, i + 1, batches + [acc'], [])
            else Accumulated(xs, cap, i + 1, batches, acc')
  {
    var acc' := acc + [xs[i]];
    assert xs[..i + 1] == xs[..i] + [xs[i]];
    FullBatch(|acc'|, cap);
    if |acc'| == cap {
      FlattenSnoc(batches, acc');
      assert (|batches| + 1) * cap == |batches| * cap + cap;
    }
  }

  /** After the loop: saving the non-empty remainder completes the cut. */
  lemma FinalFlush<T>(xs: seq<T>, cap: nat, full: seq<seq<T>>, acc: seq<T>)
    requires cap > 0 && Flatten(full) + acc == xs && |acc| < cap
    requires forall b :: b in full ==> |b| == cap
    requires |full| * cap + |acc| == |xs|
    ensures var batches := if acc != [] then full + [acc] else full;
            && Flatten(batches) == xs
            && (forall b :: b in batches ==> 0 < |b| <= cap)
            && (forall k :: 0 <= k < |batches| - 1 ==> |batches[k]| == cap)
            && (|xs| % cap == 0 ==> forall b :: b in batches ==> |b| == cap)
            && |batches| == |xs| / cap + (if |xs| % cap == 0 then 0 else 1)
  {
    QuotientOf(|xs|, cap, |full|, |acc|);
    if acc != [] {
      FlattenSnoc(full, acc);
      var batches := full + [acc];
      forall k | 0 <= k < |batches| - 1
        ensures |batches[k]| == cap
      {
        assert batches[k] == full[k];
      }
    }
  }

  /** `generateData()` as the loops run it: the guard, the category list and
      its save, then the item batches saved one after the other inside the
      same transaction. The outcome is `SeedRun`'s; the saves are 100 full
      batches of 1000. */
  method GenerateData(s: Store, depts: nat -> DepartmentDraw, draws: nat -> BaseDraw)
    returns (r: Result<Store>, batches: seq<seq<Item>>)
    requires WellFormed(s)
    ensures r == SeedRun(s, depts, draws)
    ensures Seeded(s) ==> batches == []
    ensures !Seeded(s) && InsertAllCategories(s, SeedCategories(depts)).Success? ==>
              && Flatten(batches) == SeedItems(s.categories.next, draws)
              && |batches| == ItemCount / FlushSize
              && (forall b :: b in batches ==> |b| == FlushSize)
  {
    if Seeded(s) {
      return Success(s), [];
    }
    var saved := InsertAllCategories(s, SeedCategories(depts));
    if saved.Failure? {
      return Failure(saved.error), [];
    }
    batches := Accumulate(SeedItems(s.categories.next, draws), FlushSize);
    SaveInOneTransactionFlat(saved.value, batches);
    r := SaveInOneTransaction(saved.value, batches);
  }
}

=== FILE: seed_jersey.dfy ===
/**
 The seed generator of the Jersey variant (`DataGeneratorService` in
 variant1). It builds 2000 categories numbered from 1, saves them in one
 transaction, then builds and saves 100000 items in batches of 5000, each
 batch in a transaction of its own. The product names, sentences, prices,
 stocks and category picks drawn from Faker and `Random` are the parameter
 `draws`: `draws(k)` is what was drawn while building item `k + 1`.

 The guard as written skips generation only when both tables hold rows
 (`SeedRunAsWritten`); `SeedRun` is the run with the guard the base
 generator uses, which skips when either table does.
 */
module JerseySeed {
  import opened Wrappers
  import opened Tables
  import opened Text
  import opened Entities
  import opened Store
  import opened Batches

  const CategoryCount: nat := 2000
  const ItemCount: nat := 100_000
  const BatchSize: nat := 5000

  /** The category types; category `n` takes type `n % 10`. */
  const CategoryTypes: seq<string> :=
    ["Electronics", "Clothing", "Food", "Books", "Toys", "Sports", "Home", "Garden", "Beauty", "Automotive"]

  function TypeOf(n: nat): (t: string)
    ensures t in CategoryTypes
  {
    CategoryTypes[n % |CategoryTypes|]
  }

  /** A type name has at most 11 letters and no underscore, before and after lower-casing. */
  lemma TypeShape(n: nat)
    ensures 1 <= |TypeOf(n)| <= 11 && '_' !in TypeOf(n) && '_' !in Lower(TypeOf(n))
  {
    var t := TypeOf(n);
    assert t == "Electronics" || t == "Clothing" || t == "Food" || t == "Books" || t == "Toys"
        || t == "Sports" || t == "Home" || t == "Garden" || t == "Beauty" || t == "Automotive";
    forall j | 0 <= j < |Lower(t)|
      ensures Lower(t)[j] != '_'
    {
      assert t[j] in t;
    }
  }

  /** Category number `n`: code `lower(type) + "_" + n`, name `type + " Category " + n`. */
  function CategoryNumbered(n: nat): Category {
    Category(Suffixed(Lower(TypeOf(n)), n), TypeOf(n) + " Category " + Decimal(n))
  }

  /** `generateCategories(count)`: categories 1 to `count`, in order. */
  function GenerateCategories(count: nat): (r: seq<Category>)
    ensures |r| == count
  {
    seq(count, k requires 0 <= k < count => CategoryNumbered(k + 1))
  }

  /** Below 10000 a category fits its columns: the code has at most
      11 + 1 + 4 characters, the name at most 11 + 10 + 4. */
  lemma CategoryFits(n: nat)
    requires n < 10000
    ensures ValidCategory(CategoryNumbered(n)) && |CategoryNumbered(n).code| <= 16
  {
    TypeShape(n);
    assert Pow10(4) == 10000;
    DecimalLength(n, 4);
    SuffixedLength(Lower(TypeOf(n)), n);
  }

  /** The number after the underscore tells any two codes apart. */
  lemma CategoryCodesDistinct(m: nat, n: nat)
    ensures CategoryNumbered(m).code == CategoryNumbered(n).code ==> m == n
  {
    if CategoryNumbered(m).code == CategoryNumbered(n).code {
      TypeShape(m);
      TypeShape(n);
      SuffixedInjective(Lower(TypeOf(m)), m, Lower(TypeOf(n)), n);
    }
  }

  /** No stored category uses one of the generated codes. */
  predicate CodesFree(s: Store) {
    forall k :: 0 <= k < CategoryCount ==> CodeFree(s.categories, GenerateCategories(CategoryCount)[k].code, None)
  }

  /** The category save succeeds exactly when no stored category already
      uses one of the generated codes. */
  lemma GeneratedCategoriesAdmissible(s: Store)
    requires WellFormed(s)
    ensures InsertAllCategories(s, GenerateCategories(CategoryCount)).Success? <==> CodesFree(s)
  {
    GeneratedCategoriesValid();
    InsertAllCategoriesAdmissible(s, GenerateCategories(CategoryCount));
  }

  /** The generated categories fit their columns and have pairwise distinct codes. */
  lemma GeneratedCategoriesValid()
    ensures forall k :: 0 <= k < CategoryCount ==> ValidCategory(GenerateCategories(CategoryCount)[k])
    ensures forall i, j :: 0 <= i < j < CategoryCount ==>
              GenerateCategories(CategoryCount)[i].code != GenerateCategories(CategoryCount)[j].code
  {
    var cs := GenerateCategories(CategoryCount);
    forall k | 0 <= k < CategoryCount
      ensures ValidCategory(cs[k])
    {
      CategoryFits(k + 1);
    }
    forall i, j | 0 <= i < j < CategoryCount
      ensures cs[i].code != cs[j].code
    {
      CategoryCodesDistinct(i + 1, j + 1);
    }
  }

  /** What was drawn for one item: `productName()`, `lorem().sentence(15)`,
      `nextDouble() * 1000` rounded half-up to cents, `nextInt(1000)`, and
      `nextInt(categories.size())` for its category. */
  datatype ItemDraw = ItemDraw(productName: string, sentence: string, priceCents: int, stock: int, pick: nat)

  predicate InDrawRange(d: ItemDraw) {
    0 <= d.priceCents <= 100_000 && 0 <= d.stock < 1000 && d.pick < CategoryCount
  }

  type JerseyDraw = d: ItemDraw | InDrawRange(d) witness ItemDraw("", "", 0, 0, 0)

  /** Item number `k + 1`; `firstCategory` is the id of the first saved category. */
  function ItemNumbered(firstCategory: Id, draws: nat -> JerseyDraw, k: nat): Item {
    var d := draws(k);
    Item(Suffixed("ITEM", k + 1), d.productName + " #" + Decimal(k + 1), Some(d.sentence),
         d.priceCents, d.stock, Some(firstCategory + d.pick))
  }

  /** Items 1 to `n`. */
  function ItemsUpTo(firstCategory: Id, draws: nat -> JerseyDraw, n: nat): (r: seq<Item>)
    ensures |r| == n
  {
    seq(n, k requires 0 <= k < n => ItemNumbered(firstCategory, draws, k))
  }

  /** Batch `b`: items `b * size + 1` to `(b + 1) * size`. */
  function Batch(firstCategory: Id, draws: nat -> JerseyDraw, b: nat, size: nat): (r: seq<Item>)
    ensures |r| == size
  {
    seq(size, i requires 0 <= i < size => ItemNumbered(firstCategory, draws, b * size + i))
  }

  /** The `total / size` batches; a remainder of `total` is never generated. */
  function ItemBatches(firstCategory: Id, draws: nat -> JerseyDraw, total: nat, size: nat): (r: seq<seq<Item>>)
    requires size > 0
    ensures |r| == total / size
  {
    seq(total / size, b requires 0 <= b < total / size => Batch(firstCategory, draws, b, size))
  }

  lemma ItemsUpToSplit(firstCategory: Id, draws: nat -> JerseyDraw, b: nat, size: nat, start: nat)
    requires start == b * size
    ensures ItemsUpTo(firstCategory, draws, start + size)
            == ItemsUpTo(firstCategory, draws, start) + Batch(firstCategory, draws, b, size)
  {
    var whole := ItemsUpTo(firstCategory, draws, start + size);
    var parts := ItemsUpTo(firstCategory, draws, start) + Batch(firstCategory, draws, b, size);
    forall k | start <= k < start + size
      ensures whole[k] == parts[k]
    {
      assert Batch(firstCategory, draws, b, size)[k - start] == ItemNumbered(firstCategory, draws, b * size + (k - start));
    }
  }

  /** The first `b` batches are items 1 to `b * size`, in number order. */
  lemma {:induction false} BatchesPrefix(firstCategory: Id, draws: nat -> JerseyDraw, total: nat, size: nat, b: nat)
    requires size > 0 && b <= total / size
    ensures Flatten(ItemBatches(firstCategory, draws, total, size)[..b]) == ItemsUpTo(firstCategory, draws, b * size)
    decreases b
  {
    var all := ItemBatches(firstCategory, draws, total, size);
    if b == 0 {
      assert all[..0] == [];
    } else {
      BatchesPrefix(firstCategory, draws, total, size, b - 1);
      FlattenPrefix(all, b - 1);
      var start := (b - 1) * size;
      assert b * size == start + size;
      ItemsUpToSplit(firstCategory, draws, b - 1, size, start);
    }
  }

  /** Every batch run generates exactly `(total / size) * size` items. */
  lemma GeneratedCount(firstCategory: Id, draws: nat -> JerseyDraw, total: nat, size: nat)
    requires size > 0
    ensures |Flatten(ItemBatches(firstCategory, draws, total, size))| == (total / size) * size <= total
  {
    var all := ItemBatches(firstCategory, draws, total, size);
    BatchesPrefix(firstCategory, draws, total, size, total / size);
    assert all[..total / size] == all;
  }

  /** `"ITEM_" + number`: different numbers, different SKUs. */
  lemma SkusDistinct(firstCategory: Id, draws: nat -> JerseyDraw, j: nat, k: nat)
    ensures ItemNumbered(firstCategory, draws, j).sku == ItemNumbered(firstCategory, draws, k).sku ==> j == k
  {
    if ItemNumbered(firstCategory, draws, j).sku == ItemNumbered(firstCategory, draws, k).sku {
      SuffixedInjective("ITEM", j + 1, "ITEM", k + 1);
    }
  }

  /** Whether `productName + " #" + number` fits `VARCHAR(128)`. */
  predicate NameFits(draws: nat -> JerseyDraw, k: nat) {
    |draws(k).productName| + 2 + |Decimal(k + 1)| <= NameLength
  }

  /** With the categories stored under consecutive ids and no item stored,
      the first `n` items are admissible exactly when their names fit: SKUs
      are short and distinct, prices, stocks and categories always valid. */
  lemma ItemsUpToAdmissible(s1: Store, firstCategory: Id, cs: seq<Category>, draws: nat -> JerseyDraw, n: nat)
    requires WellFormed(s1) && s1.schema == VariantSchema && s1.items.rows == map[]
    requires |cs| == CategoryCount
    requires forall i :: 0 <= i < |cs| ==> Stored(s1.categories, Numbered(firstCategory, cs)[i])
    requires n <= ItemCount
    ensures ItemsAdmissible(s1, ItemsUpTo(firstCategory, draws, n)) <==> forall k :: 0 <= k < n ==> NameFits(draws, k)
  {
    var xs := ItemsUpTo(firstCategory, draws, n);
    forall k | 0 <= k < n
      ensures ItemAdmissible(s1, xs[k], None) <==> NameFits(draws, k)
    {
      ItemNumberedAdmissible(s1, firstCategory, cs, draws, k);
    }
    forall j, k | 0 <= j < k < n
      ensures xs[j].sku != xs[k].sku
    {
      SkusDistinct(firstCategory, draws, j, k);
    }
  }

  lemma ItemNumberedAdmissible(s1: Store, firstCategory: Id, cs: seq<Category>, draws: nat -> JerseyDraw, k: nat)
    requires WellFormed(s1) && s1.schema == VariantSchema && s1.items.rows == map[]
    requires |cs| == CategoryCount
    requires forall i :: 0 <= i < |cs| ==> Stored(s1.categories, Numbered(firstCategory, cs)[i])
    requires k < ItemCount
    ensures ItemAdmissible(s1, ItemNumbered(firstCategory, draws, k), None) <==> NameFits(draws, k)
  {
    assert Stored(s1.categories, Numbered(firstCategory, cs)[draws(k).pick]);
    assert Pow10(6) == 1_000_000;
    DecimalLength(k + 1, 6);
    SuffixedLength("ITEM", k + 1);
  }

  /** Everything after the guard: the categories in one transaction, then
      each batch in a transaction of its own. A refused category list stops
      the run before any item is built. */
  function Populate(s: Store, draws: nat -> JerseyDraw): (r: Outcome)
    requires WellFormed(s)
    ensures r.error.Some? ==> r.error.value == ConstraintViolation
    ensures WellFormed(r.store) && r.store.schema == s.schema
  {
    match InsertAllCategories(s, GenerateCategories(CategoryCount))
    case Failure(e) => Outcome(s, Some(e))
    case Success(s1) => SaveEachBatch(s1, ItemBatches(s.categories.next, draws, ItemCount, BatchSize))
  }

  /** The guard as written: skip only when both tables hold rows. */
  predicate Populated(s: Store) {
    Count(s.categories) > 0 && Count(s.items) > 0
  }

  /** `generateData()` as written. */
  function SeedRunAsWritten(s: Store, draws: nat -> JerseyDraw): (r: Outcome)
    requires WellFormed(s)
    ensures Populated(s) ==> r == Outcome(s, None)
    ensures r.error.Some? ==> r.error.value == ConstraintViolation
  {
    if Populated(s) then Outcome(s, None) else Populate(s, draws)
  }

  /** `generateData()` with the guard skipping any store that holds rows. */
  function SeedRun(s: Store, draws: nat -> JerseyDraw): (r: Outcome)
    requires WellFormed(s)
    ensures Seeded(s) ==> r == Outcome(s, None)
    ensures r.error.Some? ==> r.error.value == ConstraintViolation
  {
    if Seeded(s) then Outcome(s, None) else Populate(s, draws)
  }

  /** The two guards decide alike unless exactly one table is empty. */
  lemma GuardsAgree(s: Store, draws: nat -> JerseyDraw)
    requires WellFormed(s) && (Count(s.categories) == 0 <==> Count(s.items) == 0)
    ensures SeedRunAsWritten(s, draws) == SeedRun(s, draws)
  {
  }

  /** On a store without categories the category save always succeeds, and
      leaves exactly the 2000 generated categories. */
  lemma CategoryStepSucceeds(s: Store)
    requires WellFormed(s) && Count(s.categories) == 0
    ensures InsertAllCategories(s, GenerateCategories(CategoryCount)).Success?
    ensures Count(InsertAllCategories(s, GenerateCategories(CategoryCount)).value.categories) == CategoryCount
  {
    var cs := GenerateCategories(CategoryCount);
    EmptyContents(s.categories);
    GeneratedCategoriesAdmissible(s);
    InsertAllCategoriesContents(s, cs);
    CountMatchesContents(InsertAllCategories(s, cs).value.categories);
  }

  /** As written, a first run on an empty store whose first item is refused
      keeps the 2000 categories and no item. Every later run then passes the
      guard, repeats the category save, and is refused on the unique codes:
      the generator can no longer fill the store. */
  lemma RerunAfterRefusedBatchFails(draws: nat -> JerseyDraw, draws': nat -> JerseyDraw)
    requires !NameFits(draws, 0)
    ensures var first := SeedRunAsWritten(EmptyStore(VariantSchema), draws);
            && first.error == Some(ConstraintViolation)
            && Count(first.store.categories) == CategoryCount && Count(first.store.items) == 0
            && SeedRunAsWritten(first.store, draws') == Outcome(first.store, Some(ConstraintViolation))
  {
    var s := EmptyStore(VariantSchema);
    CategoryStepSucceeds(s);
    var s1 := InsertAllCategories(s, GenerateCategories(CategoryCount)).value;
    var batches := ItemBatches(s.categories.next, draws, ItemCount, BatchSize);
    assert !ItemAdmissible(s1, batches[0][0], None);
    assert InsertAllItems(s1, batches[0]).Failure?;
    assert SeedRunAsWritten(s, draws) == Outcome(s1, Some(ConstraintViolation));
    RerunOverSavedCategoriesFails(s, s1, draws');
  }

  /** As written, a store that holds the generated categories and no item is
      never seeded: the guard lets the run through and the category save is
      refused on the first code. */
  lemma RerunOverSavedCategoriesFails(s: Store, s1: Store, draws: nat -> JerseyDraw)
    requires WellFormed(s) && InsertAllCategories(s, GenerateCategories(CategoryCount)) == Success(s1)
    requires Count(s1.items) == 0
    ensures SeedRunAsWritten(s1, draws) == Outcome(s1, Some(ConstraintViolation))
  {
    var cs := GenerateCategories(CategoryCount);
    InsertAllCategoriesStored(s, cs, s1);
    assert Stored(s1.categories, Numbered(s.categories.next, cs)[0]);
    assert !CodesFree(s1);
    GeneratedCategoriesAdmissible(s1);
  }

  /** With the corrected guard a second run never changes anything: the
      first run either found rows already, or stored the 2000 categories. */
  lemma SeedRunIdempotent(s: Store, draws: nat -> JerseyDraw, draws': nat -> JerseyDraw)
    requires WellFormed(s)
    ensures var first := SeedRun(s, draws);
            SeedRun(first.store, draws') == Outcome(first.store, None)
  {
    if !Seeded(s) {
      CategoryStepSucceeds(s);
    }
  }

  /** A run that passed the guard leaves whole batches: items 1 to
      `b * 5000` for some `b`, all 20 batches exactly when nothing was
      refused. */
  lemma SeedRunCommitsWholeBatches(s: Store, s1: Store, draws: nat -> JerseyDraw) returns (b: nat)
    requires WellFormed(s) && !Seeded(s)
    requires InsertAllCategories(s, GenerateCategories(CategoryCount)) == Success(s1)
    ensures b <= ItemCount / BatchSize
    ensures InsertAllItems(s1, ItemsUpTo(s.categories.next, draws, b * BatchSize)) == Success(SeedRun(s, draws).store)
    ensures SeedRun(s, draws).error.None? <==> b == ItemCount / BatchSize
  {
    var batches := ItemBatches(s.categories.next, draws, ItemCount, BatchSize);
    assert SeedRun(s, draws) == SaveEachBatch(s1, batches);
    b := SaveEachBatchPrefix(s1, batches);
    BatchesPrefix(s.categories.next, draws, ItemCount, BatchSize, b);
  }

  /** On an empty store a run with the corrected guard completes exactly
      when every product name leaves room for its number. */
  lemma SeedRunSucceeds(s: Store, draws: nat -> JerseyDraw)
    requires WellFormed(s) && s.schema == VariantSchema && !Seeded(s)
    ensures SeedRun(s, draws).error.None? <==> forall k :: 0 <= k < ItemCount ==> NameFits(draws, k)
  {
    var cs := GenerateCategories(CategoryCount);
    CategoryStepSucceeds(s);
    var s1 := InsertAllCategories(s, cs).value;
    assert SeedRun(s, draws) == SaveEachBatch(s1, ItemBatches(s.categories.next, draws, ItemCount, BatchSize));
    BatchesCompleteWhenAdmissible(s1, s.categories.next, draws);
    EmptyContents(s.items);
    InsertAllCategoriesStored(s, cs, s1);
    ItemsUpToAdmissible(s1, s.categories.next, cs, draws, ItemCount);
  }

  /** The batch run over all items completes exactly when the items taken
      together are admissible. */
  lemma BatchesCompleteWhenAdmissible(s1: Store, firstCategory: Id, draws: nat -> JerseyDraw)
    requires WellFormed(s1)
    ensures SaveEachBatch(s1, ItemBatches(firstCategory, draws, ItemCount, BatchSize)).error.None?
            <==> ItemsAdmissible(s1, ItemsUpTo(firstCategory, draws, ItemCount))
  {
    var batches := ItemBatches(firstCategory, draws, ItemCount, BatchSize);
    SaveEachBatchComplete(s1, batches);
    SaveInOneTransactionFlat(s1, batches);
    assert Flatten(batches) == ItemsUpTo(firstCategory, draws, ItemCount) by {
      BatchesPrefix(firstCategory, draws, ItemCount, BatchSize, ItemCount / BatchSize);
      assert batches[..ItemCount / BatchSize] == batches;
    }
    InsertAllItemsAdmissible(s1, ItemsUpTo(firstCategory, draws, ItemCount));
  }

  /** `generateAndSaveItemsInBatches`: for each of the `total / batchSize`
      batches the inner loop builds items `start + 1` to `start + batchSize`,
      then `saveAll` commits them; a refused batch ends the run. `saved`
      counts the committed batches. */
  method SaveItemsInBatches(s1: Store, firstCategory: Id, draws: nat -> JerseyDraw, total: nat, batchSize: nat)
    returns (o: Outcome, saved: nat)
    requires WellFormed(s1) && batchSize > 0
    ensures o == SaveEachBatch(s1, ItemBatches(firstCategory, draws, total, batchSize))
    ensures saved <= total / batchSize
    ensures o.error.None? <==> saved == total / batchSize
  {
    var all := ItemBatches(firstCategory, draws, total, batchSize);
    var batches := total / batchSize;
    var cur := s1;
    var batch := 0;
    while batch < batches
      invariant 0 <= batch <= batches && WellFormed(cur)
      invariant SaveEachBatch(cur, all[batch..]) == SaveEachBatch(s1, all)
    {
      var items := BuildBatch(firstCategory, draws, batch, batchSize);
      assert items == all[batch];
      assert all[batch..][1..] == all[batch + 1..];
      match InsertAllItems(cur, items)
      case Failure(e) =>
        return Outcome(cur, Some(e)), batch;
      case Success(next) =>
        cur := next;
      batch := batch + 1;
    }
    assert all[batch..] == [];
    return Outcome(cur, None), batches;
  }

  /** The inner loop: items `batch * batchSize + 1` to `(batch + 1) * batchSize`. */
  method BuildBatch(firstCategory: Id, draws: nat -> JerseyDraw, batch: nat, batchSize: nat) returns (items: seq<Item>)
    ensures items == Batch(firstCategory, draws, batch, batchSize)
  {
    items := [];
    var start := batch * batchSize;
    var i := 0;
    while i < batchSize
      invariant 0 <= i <= batchSize
      invariant items == Batch(firstCategory, draws, batch, batchSize)[..i]
    {
      items := items + [ItemNumbered(firstCategory, draws, start + i)];
      i := i + 1;
    }
  }

  /** `generateData()` as the loops run it, with the guard as written. Where
      both tables are empty or both hold rows, this is the corrected run. */
  method GenerateData(s: Store, draws: nat -> JerseyDraw) returns (o: Outcome)
    requires WellFormed(s)
    ensures o == SeedRunAsWritten(s, draws)
    ensures (Count(s.categories) == 0 <==> Count(s.items) == 0) ==> o == SeedRun(s, draws)
  {
    if Populated(s) {
      return Outcome(s, None);
    }
    var categories := GenerateCategories(CategoryCount);
    match InsertAllCategories(s, categories)
    case Failure(e) =>
      return Outcome(s, Some(e));
    case Success(s1) =>
      var saved;
      o, saved := SaveItemsInBatches(s1, s.categories.next, draws, ItemCount, BatchSize);
  }
}

=== FILE: spring_services.dfy ===
/**
 The services of the Spring Data variant (`ItemService`, `CategoryService`
 in variant2). Lookups throw "not found" instead of returning an empty
 Optional, and updates load the stored entity, copy the payload's fields
 onto it and save it back, so the stored id is kept.
 */
module SpringServices {
  import opened Wrappers
  import opened Tables
  import opened Entities
  import opened Store
  import JerseyServices

  /** `getItemById(id)`: the stored item, or NotFound. */
  function GetItem(s: Store, id: Id): (r: Result<Item>)
    ensures r.Success? <==> Exists(s.items, id)
    ensures r.Failure? ==> r.error == NotFound
    ensures r.Success? ==> Find(s.items, id) == Some(r.value)
  {
    match Find(s.items, id)
    case None => Failure(NotFound)
    case Some(it) => Success(it)
  }

  /** `getCategoryById(id)`: the stored category, or NotFound. */
  function GetCategory(s: Store, id: Id): (r: Result<Category>)
    ensures r.Success? <==> Exists(s.categories, id)
    ensures r.Failure? ==> r.error == NotFound
    ensures r.Success? ==> Find(s.categories, id) == Some(r.value)
  {
    match Find(s.categories, id)
    case None => Failure(NotFound)
    case Some(c) => Success(c)
  }

  /** The setter calls of `updateItem`: sku, name, description, price, stock
      and category all come from the payload. */
  function CopyItemFields(existing: Item, payload: Item): (r: Item)
    ensures r == payload
  {
    existing.(sku := payload.sku, name := payload.name, description := payload.description,
              priceCents := payload.priceCents, stock := payload.stock, category := payload.category)
  }

  /** The setter calls of `updateCategory`: only code and name are copied;
      the row's id, and with it the items that belong to it, stay. */
  function CopyCategoryFields(existing: Category, payload: Category): (r: Category)
    ensures r == payload
  {
    existing.(code := payload.code, name := payload.name)
  }

  /** `updateItem(id, item)`: NotFound before any save when the id is absent;
      otherwise the stored row takes the payload's fields and keeps its id. */
  function UpdateItem(s: Store, id: Id, it: Item): (r: Result<Store>)
    requires WellFormed(s)
    ensures r.Failure? ==> (r.error == NotFound <==> id !in s.items.rows)
    ensures r.Success? ==> Find(r.value.items, id) == Some(it) && r.value.categories == s.categories
  {
    match GetItem(s, id)
    case Failure(e) => Failure(e)
    case Success(existing) =>
      match MergeItem(s, id, CopyItemFields(existing, it))
      case Failure(e) => Failure(e)
      case Success((s', _)) => Success(s')
  }

  /** Both variants' item updates have the same effect on the store. */
  lemma UpdateItemAgrees(s: Store, id: Id, it: Item)
    requires WellFormed(s)
    ensures UpdateItem(s, id, it) == JerseyServices.UpdateItem(s, id, it)
  {
  }

  /** `updateCategory(id, category)`: NotFound before any save when the id is
      absent; otherwise code and name are replaced and the items are untouched. */
  function UpdateCategory(s: Store, id: Id, c: Category): (r: Result<Store>)
    requires WellFormed(s)
    ensures r.Failure? ==> (r.error == NotFound <==> id !in s.categories.rows)
    ensures r.Success? ==> Find(r.value.categories, id) == Some(c) && r.value.items == s.items
  {
    match GetCategory(s, id)
    case Failure(e) => Failure(e)
    case Success(existing) =>
      match MergeCategory(s, id, CopyCategoryFields(existing, c))
      case Failure(e) => Failure(e)
      case Success((s', _)) => Success(s')
  }

  /** Both variants' category updates have the same effect on the store. */
  lemma UpdateCategoryAgrees(s: Store, id: Id, c: Category)
    requires WellFormed(s)
    ensures UpdateCategory(s, id, c) == JerseyServices.UpdateCategory(s, id, c)
  {
  }
}

=== FILE: store.dfy ===
/**
 The relational store behind every variant: a category table and an item
 table, with the constraints the schema declares checked on every write.
 A write that breaks a constraint fails with ConstraintViolation and, being
 its own transaction, leaves the store as it was.
 */
module Store {
  import opened Wrappers
  import opened Tables
  import opened Entities

  datatype Store = Store(schema: Schema, categories: Table<Category>, items: Table<Item>)

  function EmptyStore(schema: Schema): (s: Store)
    ensures Consistent(s) && Count(s.categories) == 0 && Count(s.items) == 0
  {
    Store(schema, Tables.Empty(), Tables.Empty())
  }

  predicate WellFormed(s: Store) {
    Valid(s.categories) && Valid(s.items)
  }

  /** Either table holds rows: the data generators leave such a store alone. */
  predicate Seeded(s: Store) {
    Count(s.categories) > 0 || Count(s.items) > 0
  }

  /** `UNIQUE (code)` */
  predicate CodesUnique(t: Table<Category>) {
    forall a, b :: a in t.rows && b in t.rows && t.rows[a].code == t.rows[b].code ==> a == b
  }

  /** `UNIQUE (sku)` */
  predicate SkusUnique(t: Table<Item>) {
    forall a, b :: a in t.rows && b in t.rows && t.rows[a].sku == t.rows[b].sku ==> a == b
  }

  /** The foreign key `item.category_id -> category.id`. */
  predicate LinksResolve(s: Store) {
    forall k :: k in s.items.rows && s.items.rows[k].category.Some? ==>
      s.items.rows[k].category.value in s.categories.rows
  }

  /** Every constraint of the schema holds of the stored rows. */
  predicate Consistent(s: Store) {
    && WellFormed(s)
    && (forall k :: k in s.categories.rows ==> ValidCategory(s.categories.rows[k]))
    && CodesUnique(s.categories)
    && (forall k :: k in s.items.rows ==> ValidItem(s.schema, s.items.rows[k]))
    && SkusUnique(s.items)
    && LinksResolve(s)
  }

  /** No stored category, other than the row `except` being rewritten, uses `code`. */
  predicate CodeFree(t: Table<Category>, code: string, except: Option<Id>) {
    forall k :: k in t.rows && Some(k) != except ==> t.rows[k].code != code
  }

  predicate SkuFree(t: Table<Item>, sku: string, except: Option<Id>) {
    forall k :: k in t.rows && Some(k) != except ==> t.rows[k].sku != sku
  }

  /** Writing `c` (as a new row, or over row `except`) keeps every constraint. */
  predicate CategoryAdmissible(s: Store, c: Category, except: Option<Id>) {
    ValidCategory(c) && CodeFree(s.categories, c.code, except)
  }

  predicate ItemAdmissible(s: Store, it: Item, except: Option<Id>) {
    && ValidItem(s.schema, it)
    && SkuFree(s.items, it.sku, except)
    && (it.category.Some? ==> it.category.value in s.categories.rows)
  }

  /** `persist` of a new category. */
  function InsertCategory(s: Store, c: Category): (r: Result<(Store, Id)>)
    requires WellFormed(s)
    ensures r.Success? <==> CategoryAdmissible(s, c, None)
    ensures r.Failure? ==> r.error == ConstraintViolation
    ensures r.Success? ==> var (s', id) := r.value;
              && WellFormed(s') && s'.schema == s.schema && s'.items == s.items
              && id !in s.categories.rows && s'.categories.rows == s.categories.rows[id := c]
              && Contents(s'.categories) == Contents(s.categories) + [Row(id, c)]
              && id == s.categories.next && s'.categories.next == id + 1
    ensures r.Success? && Consistent(s) ==> Consistent(r.value.0)
  {
    if CategoryAdmissible(s, c, None) then
      var (t, id) := Insert(s.categories, c);
      var s' := s.(categories := t);
      assert Consistent(s) ==> Consistent(s') by {
        if Consistent(s) {
          assert CodesUnique(t);
        }
      }
      Success((s', id))
    else
      Failure(ConstraintViolation)
  }

  /** `persist` of a new item. */
  function InsertItem(s: Store, it: Item): (r: Result<(Store, Id)>)
    requires WellFormed(s)
    ensures r.Success? <==> ItemAdmissible(s, it, None)
    ensures r.Failure? ==> r.error == ConstraintViolation
    ensures r.Success? ==> var (s', id) := r.value;
              && WellFormed(s') && s'.schema == s.schema && s'.categories == s.categories
              && id !in s.items.rows && s'.items.rows == s.items.rows[id := it]
              && Contents(s'.items) == Contents(s.items) + [Row(id, it)]
              && id == s.items.next && s'.items.next == id + 1
    ensures r.Success? && Consistent(s) ==> Consistent(r.value.0)
  {
    if ItemAdmissible(s, it, None) then
      var (t, id) := Insert(s.items, it);
      var s' := s.(items := t);
      assert Consistent(s) ==> Consistent(s') by {
        if Consistent(s) {
          assert SkusUnique(t);
          assert LinksResolve(s');
        }
      }
      Success((s', id))
    else
      Failure(ConstraintViolation)
  }

  /** A category whose code a stored row already uses is refused, as a new
      row and as a rewrite of any other row. */
  lemma DuplicateCodeRefused(s: Store, c: Category, k: Id)
    requires WellFormed(s) && k in s.categories.rows && s.categories.rows[k].code == c.code
    ensures InsertCategory(s, c) == Failure(ConstraintViolation)
    ensures forall id :: id != k ==> MergeCategory(s, id, c) == Failure(ConstraintViolation)
  {
  }

  /** Under the base mapping an item needs no category: one without a
      category is stored exactly when its columns fit, it carries no
      description, and its SKU is free. */
  lemma BaseItemWithoutCategory(s: Store, it: Item)
    requires WellFormed(s) && s.schema == BaseSchema && it.category.None?
    ensures InsertItem(s, it).Success? <==>
              && |it.sku| <= SkuLength && |it.name| <= NameLength
              && ValidPrice(it.priceCents) && IntMin <= it.stock <= IntMax
              && it.description.None? && SkuFree(s.items, it.sku, None)
  {
  }

  /** Under the variant mapping the category is mandatory: an item without
      one is always refused. */
  lemma VariantItemNeedsCategory(s: Store, it: Item)
    requires WellFormed(s) && s.schema == VariantSchema && it.category.None?
    ensures InsertItem(s, it) == Failure(ConstraintViolation)
  {
  }

  /** `merge` of a category carrying id `id`: the stored row with that id takes
      the given state; an id that is not stored is persisted as a new row. */
  function MergeCategory(s: Store, id: Id, c: Category): (r: Result<(Store, Id)>)
    requires WellFormed(s)
    ensures id in s.categories.rows ==>
              && (r.Success? <==> CategoryAdmissible(s, c, Some(id)))
              && (r.Success? ==> var (s', k) := r.value;
                    && k == id && WellFormed(s') && s'.schema == s.schema && s'.items == s.items
                    && s'.categories.rows == s.categories.rows[id := c]
                    && s'.categories.order == s.categories.order)
    ensures id !in s.categories.rows ==> r == InsertCategory(s, c)
    ensures r.Failure? ==> r.error == ConstraintViolation
    ensures r.Success? && Consistent(s) ==> Consistent(r.value.0)
  {
    if id in s.categories.rows then
      if CategoryAdmissible(s, c, Some(id)) then
        var s' := s.(categories := Replace(s.categories, id, c));
        assert Consistent(s) ==> Consistent(s') by {
          if Consistent(s) {
            assert CodesUnique(s'.categories);
            assert LinksResolve(s');
          }
        }
        Success((s', id))
      else
        Failure(ConstraintViolation)
    else
      InsertCategory(s, c)
  }

  /** `merge` of an item carrying id `id`. */
  function MergeItem(s: Store, id: Id, it: Item): (r: Result<(Store, Id)>)
    requires WellFormed(s)
    ensures id in s.items.rows ==>
              && (r.Success? <==> ItemAdmissible(s, it, Some(id)))
              && (r.Success? ==> var (s', k) := r.value;
                    && k == id && WellFormed(s') && s'.schema == s.schema
                    && s'.categories == s.categories
                    && s'.items.rows == s.items.rows[id := it]
                    && s'.items.order == s.items.order)
    ensures id !in s.items.rows ==> r == InsertItem(s, it)
    ensures r.Failure? ==> r.error == ConstraintViolation
    ensures r.Success? && Consistent(s) ==> Consistent(r.value.0)
  {
    if id in s.items.rows then
      if ItemAdmissible(s, it, Some(id)) then
        var s' := s.(items := Replace(s.items, id, it));
        assert Consistent(s) ==> Consistent(s') by {
          if Consistent(s) {
            assert SkusUnique(s'.items);
            assert LinksResolve(s');
          }
        }
        Success((s', id))
      else
        Failure(ConstraintViolation)
    else
      InsertItem(s, it)
  }

  /** Removes item `id` when it is stored; an absent id changes nothing. */
  function RemoveItem(s: Store, id: Id): (s': Store)
    requires WellFormed(s)
    ensures WellFormed(s') && s'.schema == s.schema && s'.categories == s.categories
    ensures s'.items.rows == s.items.rows - {id}
    ensures id !in s.items.rows ==> s' == s
    ensures Consistent(s) ==> Consistent(s')
  {
    s.(items := Drop(s.items, {id}))
  }

  /** The ids of the items that belong to category `c`. */
  function ItemsOfCategory(s: Store, c: Id): set<Id> {
    KeysWhere(s.items, ByCategory(c))
  }

  /** Removes category `id` when it is stored. Under VariantSchema the
      removal cascades to the items of the category (`CascadeType.ALL`);
      under BaseSchema no cascade is declared, so a category that items
      still reference cannot go (the foreign key refuses it). An absent id
      changes nothing. */
  function RemoveCategory(s: Store, id: Id): (r: Result<Store>)
    requires WellFormed(s)
    ensures id !in s.categories.rows ==> r == Success(s)
    ensures r.Failure? <==> s.schema == BaseSchema && id in s.categories.rows && ItemsOfCategory(s, id) != {}
    ensures r.Failure? ==> r.error == ConstraintViolation
    ensures r.Success? && id in s.categories.rows ==> var s' := r.value;
              && WellFormed(s') && s'.schema == s.schema
              && s'.categories.rows == s.categories.rows - {id}
              && s'.items.rows == s.items.rows - ItemsOfCategory(s, id)
  {
    if id !in s.categories.rows then
      Success(s)
    else
      var owned := ItemsOfCategory(s, id);
      if s.schema == BaseSchema && owned != {} then
        Failure(ConstraintViolation)
      else
        Success(Store(s.schema, Drop(s.categories, {id}), Drop(s.items, owned)))
  }

  /** Removing a category keeps every constraint: no item is left pointing
      at the removed row, because its items are removed with it or, under
      BaseSchema, there are none. */
  lemma RemoveCategoryConsistent(s: Store, id: Id)
    requires Consistent(s)
    ensures RemoveCategory(s, id).Success? ==> Consistent(RemoveCategory(s, id).value)
  {
    var r := RemoveCategory(s, id);
    if r.Success? && id in s.categories.rows {
      var s' := r.value;
      var owned := ItemsOfCategory(s, id);
      assert forall k :: k in s'.items.rows ==> k in s.items.rows && k !in owned;
      assert LinksResolve(s');
    }
  }

  /** Every category of `cs` can be written as a new row: each is valid, no
      stored category has its code, and no two of them share a code. */
  predicate CategoriesAdmissible(s: Store, cs: seq<Category>) {
    && (forall i :: 0 <= i < |cs| ==> CategoryAdmissible(s, cs[i], None))
    && (forall i, j :: 0 <= i < j < |cs| ==> cs[i].code != cs[j].code)
  }

  predicate ItemsAdmissible(s: Store, xs: seq<Item>) {
    && (forall i :: 0 <= i < |xs| ==> ItemAdmissible(s, xs[i], None))
    && (forall i, j :: 0 <= i < j < |xs| ==> xs[i].sku != xs[j].sku)
  }

  /** Persists `cs` one after the other in one transaction: on the first
      refused row the whole transaction rolls back, so either every category
      is stored, in list order under consecutive ids, or none is. Which lists
      succeed is `InsertAllCategoriesAdmissible`. */
  function InsertAllCategories(s: Store, cs: seq<Category>): (r: Result<Store>)
    requires WellFormed(s)
    ensures r.Failure? ==> r.error == ConstraintViolation
    ensures r.Success? ==>
              && WellFormed(r.value) && r.value.schema == s.schema && r.value.items == s.items
              && r.value.categories.next == s.categories.next + |cs|
    decreases |cs|
  {
    if cs == [] then Success(s)
    else
      match InsertCategory(s, cs[0])
      case Failure(e) => Failure(e)
      case Success((s1, _)) => InsertAllCategories(s1, cs[1..])
  }

  /** On success the rows appear after the stored ones, in list order, under
      consecutive ids starting at the identity counter. */
  lemma {:induction false} InsertAllCategoriesContents(s: Store, cs: seq<Category>)
    requires WellFormed(s)
    ensures var r := InsertAllCategories(s, cs);
            r.Success? ==> Contents(r.value.categories) == Contents(s.categories) + Numbered(s.categories.next, cs)
    decreases |cs|
  {
    if cs == [] {
      assert Numbered(s.categories.next, cs) == [];
    } else {
      match InsertCategory(s, cs[0])
      case Failure(_) =>
      case Success((s1, id)) =>
        var r := InsertAllCategories(s1, cs[1..]);
        if r.Success? {
          InsertAllCategoriesContents(s1, cs[1..]);
          NumberedCons(s.categories.next, cs);
          AppendAfterInsert(Contents(s.categories), Row(id, cs[0]), Contents(s1.categories),
                            Numbered(s1.categories.next, cs[1..]), Contents(r.value.categories));
        }
    }
  }

  /** On success the `i`-th category of the list is stored under the `i`-th
      id from the identity counter: the ids a caller can use to refer to it. */
  lemma InsertAllCategoriesStored(s: Store, cs: seq<Category>, s1: Store)
    requires WellFormed(s) && InsertAllCategories(s, cs) == Success(s1)
    ensures forall i :: 0 <= i < |cs| ==> Stored(s1.categories, Numbered(s.categories.next, cs)[i])
  {
    InsertAllCategoriesContents(s, cs);
    NumberedStored(s1.categories, Contents(s.categories), s.categories.next, cs);
  }

  /** One insert followed by a run of inserts appends the rows in order. */
  lemma AppendAfterInsert<T>(before: seq<T>, x: T, middle: seq<T>, rest: seq<T>, after: seq<T>)
    requires middle == before + [x] && after == middle + rest
    ensures after == before + ([x] + rest)
  {
  }

  /** The list is stored exactly when every category in it is admissible and
      no two share a code. */
  lemma {:induction false} InsertAllCategoriesAdmissible(s: Store, cs: seq<Category>)
    requires WellFormed(s)
    ensures InsertAllCategories(s, cs).Success? <==> CategoriesAdmissible(s, cs)
    decreases |cs|
  {
    if cs != [] {
      match InsertCategory(s, cs[0])
      case Failure(_) =>
        assert !CategoryAdmissible(s, cs[0], None);
      case Success((s1, id)) =>
        CategoriesAdmissibleStep(s, cs, s1, id);
        InsertAllCategoriesAdmissible(s1, cs[1..]);
    }
  }

  /** Persisting a list keeps every constraint of the store. */
  lemma {:induction false} InsertAllCategoriesConsistent(s: Store, cs: seq<Category>)
    requires Consistent(s)
    ensures InsertAllCategories(s, cs).Success? ==> Consistent(InsertAllCategories(s, cs).value)
    decreases |cs|
  {
    if cs != [] {
      var first := InsertCategory(s, cs[0]);
      if first.Success? {
        InsertAllCategoriesConsistent(first.value.0, cs[1..]);
      }
    }
  }

  lemma CategoriesAdmissibleStep(s: Store, cs: seq<Category>, s1: Store, id: Id)
    requires WellFormed(s) && cs != []
    requires InsertCategory(s, cs[0]) == Success((s1, id))
    ensures CategoriesAdmissible(s, cs) <==> CategoriesAdmissible(s1, cs[1..])
  {
    var rest := cs[1..];
    if CategoriesAdmissible(s, cs) {
      forall i | 0 <= i < |rest|
        ensures CategoryAdmissible(s1, rest[i], None)
      {
        assert rest[i] == cs[i + 1];
      }
    }
    if CategoriesAdmissible(s1, rest) {
      forall i | 0 <= i < |cs|
        ensures CategoryAdmissible(s, cs[i], None)
      {
        if i > 0 {
          assert cs[i] == rest[i - 1];
          assert CategoryAdmissible(s1, rest[i - 1], None);
        }
      }
      forall i, j | 0 <= i < j < |cs|
        ensures cs[i].code != cs[j].code
      {
        if i == 0 {
          assert cs[j] == rest[j - 1];
          assert CodeFree(s1.categories, rest[j - 1].code, None);
          assert s1.categories.rows[id] == cs[0];
        } else {
          assert cs[i] == rest[i - 1] && cs[j] == rest[j - 1];
        }
      }
    }
  }

  /** Persists `xs` one after the other in one transaction; all or nothing.
      Which lists succeed is `InsertAllItemsAdmissible`. */
  function InsertAllItems(s: Store, xs: seq<Item>): (r: Result<Store>)
    requires WellFormed(s)
    ensures r.Failure? ==> r.error == ConstraintViolation
    ensures r.Success? ==>
              && WellFormed(r.value) && r.value.schema == s.schema && r.value.categories == s.categories
              && r.value.items.next == s.items.next + |xs|
    decreases |xs|
  {
    if xs == [] then Success(s)
    else
      match InsertItem(s, xs[0])
      case Failure(e) => Failure(e)
      case Success((s1, _)) => InsertAllItems(s1, xs[1..])
  }

  /** On success the rows appear after the stored ones, in list order, under
      consecutive ids starting at the identity counter. */
  lemma {:induction false} InsertAllItemsContents(s: Store, xs: seq<Item>)
    requires WellFormed(s)
    ensures var r := InsertAllItems(s, xs);
            r.Success? ==> Contents(r.value.items) == Contents(s.items) + Numbered(s.items.next, xs)
    decreases |xs|
  {
    if xs == [] {
      assert Numbered(s.items.next, xs) == [];
    } else {
      match InsertItem(s, xs[0])
      case Failure(_) =>
      case Success((s1, id)) =>
        var r := InsertAllItems(s1, xs[1..]);
        if r.Success? {
          InsertAllItemsContents(s1, xs[1..]);
          NumberedCons(s.items.next, xs);
          AppendAfterInsert(Contents(s.items), Row(id, xs[0]), Contents(s1.items),
                            Numbered(s1.items.next, xs[1..]), Contents(r.value.items));
        }
    }
  }

  /** The list is stored exactly when every item in it is admissible and no
      two share a SKU. */
  lemma {:induction false} InsertAllItemsAdmissible(s: Store, xs: seq<Item>)
    requires WellFormed(s)
    ensures InsertAllItems(s, xs).Success? <==> ItemsAdmissible(s, xs)
    decreases |xs|
  {
    if xs != [] {
      match InsertItem(s, xs[0])
      case Failure(_) =>
        assert !ItemAdmissible(s, xs[0], None);
      case Success((s1, id)) =>
        ItemsAdmissibleStep(s, xs, s1, id);
        InsertAllItemsAdmissible(s1, xs[1..]);
    }
  }

  /** Persisting a list keeps every constraint of the store. */
  lemma {:induction false} InsertAllItemsConsistent(s: Store, xs: seq<Item>)
    requires Consistent(s)
    ensures InsertAllItems(s, xs).Success? ==> Consistent(InsertAllItems(s, xs).value)
    decreases |xs|
  {
    if xs != [] {
      var first := InsertItem(s, xs[0]);
      if first.Success? {
        InsertAllItemsConsistent(first.value.0, xs[1..]);
      }
    }
  }

  lemma ItemsAdmissibleStep(s: Store, xs: seq<Item>, s1: Store, id: Id)
    requires WellFormed(s) && xs != []
    requires InsertItem(s, xs[0]) == Success((s1, id))
    ensures ItemsAdmissible(s, xs) <==> ItemsAdmissible(s1, xs[1..])
  {
    var rest := xs[1..];
    if ItemsAdmissible(s, xs) {
      forall i | 0 <= i < |rest|
        ensures ItemAdmissible(s1, rest[i], None)
      {
        assert rest[i] == xs[i + 1];
      }
    }
    if ItemsAdmissible(s1, rest) {
      forall i | 0 <= i < |xs|
        ensures ItemAdmissible(s, xs[i], None)
      {
        if i > 0 {
          assert xs[i] == rest[i - 1];
          assert ItemAdmissible(s1, rest[i - 1], None);
        }
      }
      forall i, j | 0 <= i < j < |xs|
        ensures xs[i].sku != xs[j].sku
      {
        if i == 0 {
          assert xs[j] == rest[j - 1];
          assert SkuFree(s1.items, rest[j - 1].sku, None);
          assert s1.items.rows[id] == xs[0];
        } else {
          assert xs[i] == rest[i - 1] && xs[j] == rest[j - 1];
        }
      }
    }
  }

  /** Persisting `a` and then `b` is persisting `a + b`: splitting a list into
      several all-or-nothing calls changes nothing about what ends up stored
      when every call succeeds, and the run fails exactly when the single
      call would. */
  lemma {:induction false} InsertAllItemsAppend(s: Store, a: seq<Item>, b: seq<Item>)
    requires WellFormed(s)
    ensures InsertAllItems(s, a + b)
            == match InsertAllItems(s, a)
               case Failure(e) => Failure(e)
               case Success(s1) => InsertAllItems(s1, b)
    decreases |a|
  {
    if a == [] {
      assert a + b == b;
    } else {
      assert (a + b)[0] == a[0];
      assert (a + b)[1..] == a[1..] + b;
      match InsertItem(s, a[0])
      case Failure(_) =>
      case Success((s1, _)) =>
        InsertAllItemsAppend(s1, a[1..], b);
    }
  }
}

=== FILE: tables.dfy ===
/**
 One relational table in the abstract store: rows by identity, the order
 the rows were inserted in, and the next value of the identity column. The
 listing queries have no `ORDER BY`; the model lists rows in this stable
 insertion order, which the database does not promise. Counting is defined on
 the set of ids, as SQL `COUNT` does; listing is defined on the insertion
 order; the lemmas at the end connect the two.
 */
module Tables {
  import opened Wrappers

  type Id = nat

  datatype Row<T> = Row(id: Id, value: T)

  datatype Table<T> = Table(rows: map<Id, T>, order: seq<Id>, next: Id)

  predicate Distinct(ids: seq<Id>) {
    forall i, j :: 0 <= i < j < |ids| ==> ids[i] != ids[j]
  }

  /** The order lists every stored id exactly once, and every stored id is
      below the identity counter, so the next insert gets a fresh id. */
  predicate Valid<T>(t: Table<T>) {
    && Distinct(t.order)
    && (forall k :: k in t.order ==> k in t.rows)
    && (forall k :: k in t.rows ==> k in t.order && k < t.next)
  }

  /** A freshly created table; identity columns start at 1. */
  function Empty<T>(): (t: Table<T>)
    ensures Valid(t) && t.rows == map[] && Count(t) == 0
  {
    Table(map[], [], 1)
  }

  /** `session.get(Entity.class, id)` wrapped in an `Optional`. */
  function Find<T>(t: Table<T>, id: Id): (r: Option<T>)
    ensures r.Some? <==> id in t.rows
    ensures r.Some? ==> r.value == t.rows[id]
  {
    if id in t.rows then Some(t.rows[id]) else None
  }

  /** `existsById`, defined as the source defines it: `findById(id).isPresent()`. */
  function Exists<T>(t: Table<T>, id: Id): (b: bool)
    ensures b <==> id in t.rows
  {
    Find(t, id).Some?
  }

  /** All rows in insertion order. */
  function Contents<T>(t: Table<T>): (r: seq<Row<T>>)
    requires Valid(t)
    ensures |r| == |t.order|
    ensures forall i :: 0 <= i < |r| ==> r[i] == Row(t.order[i], t.rows[t.order[i]])
  {
    seq(|t.order|, i requires 0 <= i < |t.order| => Row(t.order[i], t.rows[t.order[i]]))
  }

  /** The rows whose value satisfies `p`, keeping their relative order. */
  function Select<T>(xs: seq<Row<T>>, p: T -> bool): (r: seq<Row<T>>)
    ensures |r| <= |xs|
    ensures forall i :: 0 <= i < |r| ==> r[i] in xs && p(r[i].value)
    ensures forall i :: 0 <= i < |xs| && p(xs[i].value) ==> xs[i] in r
  {
    if xs == [] then [] else (if p(xs[0].value) then [xs[0]] else []) + Select(xs[1..], p)
  }

  /** `SELECT e FROM Entity e WHERE p(e)`, in insertion order. */
  function Where<T>(t: Table<T>, p: T -> bool): seq<Row<T>>
    requires Valid(t)
  {
    Select(Contents(t), p)
  }

  /** The ids whose row satisfies `p`. */
  function KeysWhere<T>(t: Table<T>, p: T -> bool): set<Id> {
    set k | k in t.rows && p(t.rows[k])
  }

  /** `x` is a row of `t` as stored. */
  ghost predicate Stored<T>(t: Table<T>, x: Row<T>) {
    x.id in t.rows && t.rows[x.id] == x.value
  }

  /** A listing holds stored rows, with no id twice. */
  lemma ContentsSound<T>(t: Table<T>)
    requires Valid(t)
    ensures forall x :: x in Contents(t) ==> Stored(t, x)
    ensures forall i, j :: 0 <= i < j < |Contents(t)| ==> Contents(t)[i].id != Contents(t)[j].id
  {
  }

  /** A filtered listing holds stored rows that pass the filter, and every
      stored row that passes it. */
  lemma WhereSound<T>(t: Table<T>, p: T -> bool)
    requires Valid(t)
    ensures forall x :: x in Where(t, p) ==> Stored(t, x) && p(x.value)
    ensures forall k :: k in t.rows && p(t.rows[k]) ==> Row(k, t.rows[k]) in Where(t, p)
  {
    var c := Contents(t);
    forall x | x in Where(t, p)
      ensures Stored(t, x) && p(x.value)
    {
      var i :| 0 <= i < |Where(t, p)| && Where(t, p)[i] == x;
      var n :| 0 <= n < |c| && c[n] == x;
    }
    forall k | k in t.rows && p(t.rows[k])
      ensures Row(k, t.rows[k]) in Where(t, p)
    {
      var n :| 0 <= n < |t.order| && t.order[n] == k;
      assert c[n] == Row(k, t.rows[k]);
    }
  }

  /** `SELECT COUNT(e) FROM Entity e`. */
  function Count<T>(t: Table<T>): nat {
    |t.rows|
  }

  /** `SELECT COUNT(e) FROM Entity e WHERE p(e)`. */
  function CountWhere<T>(t: Table<T>, p: T -> bool): nat {
    |KeysWhere(t, p)|
  }

  /** Appends a row under the next identity value (`session.persist`). */
  function Insert<T>(t: Table<T>, x: T): (r: (Table<T>, Id))
    requires Valid(t)
    ensures Valid(r.0)
    ensures r.1 !in t.rows && r.0.rows == t.rows[r.1 := x]
    ensures Contents(r.0) == Contents(t) + [Row(r.1, x)]
    ensures r.1 == t.next && r.0.next == t.next + 1
  {
    assert t.next !in t.order;
    var u := Table(t.rows[t.next := x], t.order + [t.next], t.next + 1);
    assert Contents(u) == Contents(t) + [Row(t.next, x)];
    (u, t.next)
  }

  /** Overwrites the row with id `id` in place (`session.merge` of a stored id). */
  function Replace<T>(t: Table<T>, id: Id, x: T): (r: Table<T>)
    requires Valid(t) && id in t.rows
    ensures Valid(r)
    ensures r.rows == t.rows[id := x] && r.next == t.next
    ensures |Contents(r)| == |Contents(t)|
    ensures forall i :: 0 <= i < |Contents(t)| ==>
              Contents(r)[i] == if Contents(t)[i].id == id then Row(id, x) else Contents(t)[i]
  {
    Table(t.rows[id := x], t.order, t.next)
  }

  /** The ids of `ids` that are not in `gone`, in their order. */
  function Keep(ids: seq<Id>, gone: set<Id>): (r: seq<Id>)
    ensures forall k :: k in r <==> k in ids && k !in gone
    ensures Distinct(ids) ==> Distinct(r)
    ensures (forall i :: 0 <= i < |ids| ==> ids[i] !in gone) ==> r == ids
  {
    if ids == [] then []
    else
      var rest := Keep(ids[1..], gone);
      assert Distinct(ids) ==> ids[0] !in ids[1..];
      if ids[0] in gone then rest else [ids[0]] + rest
  }

  /** Deletes the rows with ids in `gone`; ids that are not stored are ignored. */
  function Drop<T>(t: Table<T>, gone: set<Id>): (r: Table<T>)
    requires Valid(t)
    ensures Valid(r)
    ensures r.rows == t.rows - gone && r.next == t.next
    ensures (forall k :: k in gone ==> k !in t.rows) ==> r == t
  {
    var u := Table(t.rows - gone, Keep(t.order, gone), t.next);
    assert forall k :: k in u.order ==> k in t.order && k !in gone;
    if forall k :: k in gone ==> k !in t.rows then
      assert forall i :: 0 <= i < |t.order| ==> t.order[i] !in gone;
      assert u.rows == t.rows;
      t
    else
      u
  }

  /** `xs` as the rows a sequence of inserts starting at identity `start` creates. */
  function Numbered<T>(start: Id, xs: seq<T>): (r: seq<Row<T>>)
    ensures |r| == |xs|
    ensures forall i :: 0 <= i < |xs| ==> r[i] == Row(start + i, xs[i])
  {
    seq(|xs|, i requires 0 <= i < |xs| => Row(start + i, xs[i]))
  }

  /** Rows listed after some prefix under consecutive ids are stored under
      those ids. */
  lemma NumberedStored<T>(t: Table<T>, before: seq<Row<T>>, start: Id, xs: seq<T>)
    requires Valid(t) && Contents(t) == before + Numbered(start, xs)
    ensures forall i :: 0 <= i < |xs| ==> Stored(t, Numbered(start, xs)[i])
  {
    forall i | 0 <= i < |xs|
      ensures Stored(t, Numbered(start, xs)[i])
    {
      NumberedStoredAt(t, before, start, xs, i);
    }
  }

  lemma NumberedStoredAt<T>(t: Table<T>, before: seq<Row<T>>, start: Id, xs: seq<T>, i: nat)
    requires Valid(t) && Contents(t) == before + Numbered(start, xs) && i < |xs|
    ensures Stored(t, Numbered(start, xs)[i])
  {
    var j := |before| + i;
    assert Contents(t)[j] == Row(start + i, xs[i]);
    assert Contents(t)[j] == Row(t.order[j], t.rows[t.order[j]]);
  }

  lemma NumberedCons<T>(start: Id, xs: seq<T>)
    requires xs != []
    ensures Numbered(start, xs) == [Row(start, xs[0])] + Numbered(start + 1, xs[1..])
  {
  }

  /** The rows of `ids`, in that order. */
  function RowsOf<T>(rows: map<Id, T>, ids: seq<Id>): (r: seq<Row<T>>)
    requires forall i :: 0 <= i < |ids| ==> ids[i] in rows
    ensures |r| == |ids|
    ensures forall i :: 0 <= i < |ids| ==> r[i] == Row(ids[i], rows[ids[i]])
  {
    seq(|ids|, i requires 0 <= i < |ids| => Row(ids[i], rows[ids[i]]))
  }

  /** How many of `ids` have a row satisfying `p`. */
  function Matching<T>(rows: map<Id, T>, ids: seq<Id>, p: T -> bool): nat
    requires forall i :: 0 <= i < |ids| ==> ids[i] in rows
  {
    if ids == [] then 0 else (if p(rows[ids[0]]) then 1 else 0) + Matching(rows, ids[1..], p)
  }

  lemma {:induction false} SelectMatching<T>(rows: map<Id, T>, ids: seq<Id>, p: T -> bool)
    requires forall i :: 0 <= i < |ids| ==> ids[i] in rows
    ensures |Select(RowsOf(rows, ids), p)| == Matching(rows, ids, p)
    decreases |ids|
  {
    if ids != [] {
      assert RowsOf(rows, ids)[1..] == RowsOf(rows, ids[1..]);
      SelectMatching(rows, ids[1..], p);
    }
  }

  function MatchingIds<T>(rows: map<Id, T>, ids: seq<Id>, p: T -> bool): set<Id> {
    set k | k in rows && k in ids && p(rows[k])
  }

  lemma {:induction false} MatchingCard<T>(rows: map<Id, T>, ids: seq<Id>, p: T -> bool)
    requires forall i :: 0 <= i < |ids| ==> ids[i] in rows
    requires Distinct(ids)
    ensures Matching(rows, ids, p) == |MatchingIds(rows, ids, p)|
    decreases |ids|
  {
    var s := MatchingIds(rows, ids, p);
    if ids == [] {
      assert s == {};
    } else {
      var x := ids[0];
      var tail := MatchingIds(rows, ids[1..], p);
      MatchingCard(rows, ids[1..], p);
      assert Matching(rows, ids[1..], p) == |tail|;
      assert x !in ids[1..];
      assert x !in tail;
      assert forall k :: k in s <==> k in tail || (k == x && p(rows[x]));
      if p(rows[x]) {
        assert s == tail + {x};
        assert |tail + {x}| == |tail| + 1;
      } else {
        assert s == tail;
      }
    }
  }

  /** The filtered count and the filtered listing agree: `COUNT ... WHERE p`
      is the length of `... WHERE p`. */
  lemma CountWhereMatchesWhere<T>(t: Table<T>, p: T -> bool)
    requires Valid(t)
    ensures CountWhere(t, p) == |Where(t, p)|
  {
    assert Contents(t) == RowsOf(t.rows, t.order);
    SelectMatching(t.rows, t.order, p);
    MatchingCard(t.rows, t.order, p);
    assert MatchingIds(t.rows, t.order, p) == KeysWhere(t, p);
  }

  /** `COUNT` is the number of rows a full listing returns. */
  lemma CountMatchesContents<T>(t: Table<T>)
    requires Valid(t)
    ensures Count(t) == |Contents(t)|
  {
    var all := (x: T) => true;
    CountWhereMatchesWhere(t, all);
    assert KeysWhere(t, all) == t.rows.Keys;
    assert Select(Contents(t), all) == Contents(t) by {
      SelectAll(Contents(t), all);
    }
  }
  /** A table with no rows lists nothing. */
  lemma EmptyContents<T>(t: Table<T>)
    requires Valid(t) && Count(t) == 0
    ensures t.rows == map[] && Contents(t) == []
  {
    assert t.rows.Keys == {};
    CountMatchesContents(t);
  }


  lemma {:induction false} SelectAll<T>(xs: seq<Row<T>>, p: T -> bool)
    requires forall i :: 0 <= i < |xs| ==> p(xs[i].value)
    ensures Select(xs, p) == xs
    decreases |xs|
  {
    if xs != [] {
      SelectAll(xs[1..], p);
    }
  }
}

=== FILE: text.dfy ===
/**
 String helpers shared by the seed generators: decimal rendering of a
 number (Java's `"..." + n` for a non-negative `int`), its inverse, ASCII
 case folding, and the `prefix + "_" + n` code scheme whose suffix makes
 codes unique.
 */
module Text {

  predicate IsDigit(c: char) {
    '0' <= c <= '9'
  }

  function DigitChar(d: nat): (c: char)
    requires d < 10
    ensures IsDigit(c)
  {
    ('0' as int + d) as char
  }

  function DigitValue(c: char): (d: nat)
    requires IsDigit(c)
    ensures d < 10 && DigitChar(d) == c
  {
    c as int - '0' as int
  }

  predicate AllDigits(s: string) {
    forall i :: 0 <= i < |s| ==> IsDigit(s[i])
  }

  /** Decimal rendering of `n`, most significant digit first, no leading zeros. */
  function Decimal(n: nat): (r: string)
    ensures |r| >= 1 && AllDigits(r)
    ensures (|r| == 1) <==> n < 10
    decreases n
  {
    if n < 10 then [DigitChar(n)] else Decimal(n / 10) + [DigitChar(n % 10)]
  }

  /** The number a string of decimal digits denotes; the inverse of `Decimal`. */
  function ParseDecimal(s: string): nat
    requires AllDigits(s)
    decreases |s|
  {
    if s == [] then 0 else ParseDecimal(s[..|s| - 1]) * 10 + DigitValue(s[|s| - 1])
  }

  lemma {:induction false} ParseDecimalRoundTrip(n: nat)
    ensures ParseDecimal(Decimal(n)) == n
    decreases n
  {
    var r := Decimal(n);
    if n < 10 {
      assert r[..0] == [];
    } else {
      ParseDecimalRoundTrip(n / 10);
      assert r[..|r| - 1] == Decimal(n / 10);
    }
  }

  /** Distinct numbers have distinct renderings. */
  lemma DecimalInjective(a: nat, b: nat)
    ensures Decimal(a) == Decimal(b) ==> a == b
  {
    ParseDecimalRoundTrip(a);
    ParseDecimalRoundTrip(b);
  }

  function Pow10(k: nat): (p: nat)
    ensures p >= 1
  {
    if k == 0 then 1 else 10 * Pow10(k - 1)
  }

  /** A number below 10^k is rendered in at most k digits. */
  lemma {:induction false} DecimalLength(n: nat, k: nat)
    requires k >= 1 && n < Pow10(k)
    ensures |Decimal(n)| <= k
    decreases n
  {
    if n >= 10 {
      assert k >= 2;
      assert n / 10 < Pow10(k - 1);
      DecimalLength(n / 10, k - 1);
    }
  }

  /** Java's `toLowerCase` restricted to ASCII letters. */
  function LowerChar(c: char): char {
    if 'A' <= c <= 'Z' then (c as int - 'A' as int + 'a' as int) as char else c
  }

  predicate IsUpper(c: char) {
    'A' <= c <= 'Z'
  }

  function Lower(s: string): (r: string)
    ensures |r| == |s|
    ensures forall i :: 0 <= i < |r| ==> !IsUpper(r[i])
    ensures forall i :: 0 <= i < |r| ==> (r[i] == '_' <==> s[i] == '_')
    ensures forall i :: 0 <= i < |r| ==> if IsUpper(s[i]) then 'a' <= r[i] <= 'z' else r[i] == s[i]
    ensures forall i :: 0 <= i < |r| && IsUpper(s[i]) ==> r[i] as int == s[i] as int + 32
  {
    seq(|s|, i requires 0 <= i < |s| => LowerChar(s[i]))
  }

  /** Lower-casing twice is lower-casing once. */
  lemma LowerIdempotent(s: string)
    ensures Lower(Lower(s)) == Lower(s)
  {
  }

  /** `prefix + "_" + n`: the code scheme of both seed generators. */
  function Suffixed(prefix: string, n: nat): string {
    prefix + "_" + Decimal(n)
  }

  lemma SuffixedLength(prefix: string, n: nat)
    ensures |Suffixed(prefix, n)| == |prefix| + 1 + |Decimal(n)|
  {
  }

  /** Where a suffixed code has its separator, a longer prefix has a letter. */
  lemma SeparatorPosition(p: string, x: string, q: string, y: string)
    ensures |p| < |q| ==> (p + "_" + x)[|p|] == '_' && (q + "_" + y)[|p|] in q
  {
    if |p| < |q| {
      assert (q + "_" + y)[|p|] == q[|p|];
    }
  }

  /** When the prefixes contain no `_`, the separator is the first `_` of a
      suffixed code, so the code determines both its prefix and its number. */
  lemma SuffixedInjective(p: string, m: nat, q: string, n: nat)
    requires '_' !in p && '_' !in q
    requires Suffixed(p, m) == Suffixed(q, n)
    ensures p == q && m == n
  {
    var a, b := Suffixed(p, m), Suffixed(q, n);
    // a shorter prefix would put the separator where the other prefix has a letter
    if |p| < |q| {
      SeparatorPosition(p, Decimal(m), q, Decimal(n));
      assert false;
    } else if |q| < |p| {
      SeparatorPosition(q, Decimal(n), p, Decimal(m));
      assert false;
    }
    assert p == a[..|p|] == b[..|q|] == q;
    assert Decimal(m) == a[|p| + 1..] == b[|q| + 1..] == Decimal(n);
    DecimalInjective(m, n);
  }
}

=== FILE: wrappers.dfy ===
/**
 Optional values and the failures a store operation can end in.
 */
module Wrappers {

  /** A value that may be absent, as Java's `Optional` and nullable references. */
  datatype Option<+T> = None | Some(value: T)

  /** Why an operation was refused.
      - NotFound: the requested id is not stored (the services' "not found" RuntimeException).
      - ConstraintViolation: a column or key constraint of the schema was broken
        (uniqueness, length, precision, not-null or foreign key). */
  datatype Error = NotFound | ConstraintViolation

  /** The outcome of an operation that may fail; a failure carries no new state,
      so a failed write leaves the caller with the store it had (rollback). */
  datatype Result<+T> = Success(value: T) | Failure(error: Error)
}
